=== FILE: README.md ===
# Request/response correlation for clutch-hub-api

This project models the part of clutch-hub-api that talks JSON-RPC 2.0 to a
clutch node over one long-lived WebSocket. Many callers share that socket.
Each call is tagged with a fresh UUID string, and its one-shot sender is
parked in a shared pending-call table under that id. A background connection
loop reads frames, decodes each as a response envelope and hands the frame
to the sender whose id it echoes. A supervisor reconnects every 5 seconds,
for ever. The model covers four pieces:

- the envelopes of `websocket_manager/types.rs` and the serde rules that
  read and write them (`Json`, `Envelope`);
- the id salvage of `utils.rs` (`Salvage`);
- the connection loop of `websocket_manager/connection.rs`, as one sequence
  of atomic events over the table (`Pending`, `Demux`, `Supervisor`);
- the three call façades:
  - the channel-based `websocket_manager/manager.rs` (`Manager`);
  - the live node client `clutch_node_client/client.rs`, with its nonce
    helper (`Client`);
  - the older self-contained `websocket_manager.rs` (`Legacy`).

The caller-side outcome logic common to the two newer façades is in `Reply`.
`Reply.Describe` gives the exact error strings a caller sees.

The main results:

- **At most one resolution per id.** `Supervisor.AtMostOnce`: no two
  events of any run resolve the same id, in either connection loop.
- **Frames touch only their own entry.** `Demux.OnFrame` and
  `Supervisor.Step`: a frame removes at most the entry whose id it decodes
  with, or else the id salvaged from it.
  - `Supervisor.RepliesReachTheirCallers`: every payload a caller receives
    is the abandonment sentinel or a response echoing that caller's id.
- **No leaked entries.** In the newer manager a call that completes never
  leaves its entry behind (`Manager.Exchange`, `Manager.SendRequest`,
  `Client.SendRequest`).
  - `Supervisor.NoLeak`: a run in which every registration is later
    withdrawn ends with no new entries.
  - An ended epoch of the newer loop empties the table (`Supervisor.Step`).
  - The older manager lacks these guarantees (`Legacy.SendRequest`,
    `Legacy.EntriesSurviveReconnect`).
- **A caller gets what first resolves it, and only times out when nothing
  does.** `Supervisor.AwaitIsFirstResolution`: a waiting caller stays
  unresolved exactly when no event of its world resolves its id. Otherwise
  it observes the first delivery to that id. `Manager.Exchange`,
  `Manager.SendRequest` and `Client.SendRequest` turn this into "Request
  timed out" exactly when nothing resolved the call, and otherwise the
  classification of that first delivery (`Reply.Outcome`). In the older
  manager the caller is still waiting in that case (`Legacy.SendRequest`).
- **"Mismatched response ID" cannot happen.** When a façade is composed with
  the connection loop, the payload it receives always decodes and echoes its
  own id. So neither "Mismatched response ID" nor a decode error can reach
  the caller (`Manager.SendRequest`, `Client.SendRequest`,
  `Legacy.SendRequest`).

The connection loop is modelled as a state machine.
- `Down` stands for connecting or the 5-second back-off; `Up` is one
  connection epoch.
- The older loop of `websocket_manager.rs` is the same machine except at
  the end of an epoch, where it does not drain (`Supervisor.Loop`).
- The events are:
  - a caller registering or withdrawing its id;
  - a connection attempt that succeeds or fails;
  - one write from the outbound channel;
  - one inbound frame;
  - the inbound stream ending;
  - both `select!` branches being disabled.
- `State.issued` records every id generated so far. UUIDs are treated as
  never repeating, so registering an issued id is not an event that occurs.
- A caller's wait is the prefix of the world's events before its timer
  fires (`Supervisor.Await`).

Some behaviours of the code are easy to misread:

- **A stream that ends does not end the epoch.** The `else` arm of
  `tokio::select!` runs only when every branch is disabled. While the
  outbound channel is open (the manager holds its sender for good), an
  ended or failed stream only disables the inbound branch. The loop goes on
  serving the channel, and the drain waits for a failed write
  (`Supervisor.InboundEndKeepsEpoch`).
- **A failed first connection attempt drains nothing.** Entries registered
  while `Down` wait for the next epoch, and their requests queue in the
  channel (`Supervisor.ReconnectLoop`). The manager does not fail
  immediately while disconnected. Only the live client does
  (`Client.SendRequest`).
- **The live client's failed write does not end the epoch.** It only fails
  that call (`src/hub/clutch_node_client/client.rs:90-95`).
- **`jsonrpc` is required.** A reply `{"result": {"nonce": 7}, "id": ...}`
  without `jsonrpc` does not decode. Its id is salvaged and the caller's
  sender is dropped, so `get_next_nonce` returns the fallback 1, not 7
  (`Client.NonceWithoutVersionFallsBack`). With `"jsonrpc": "2.0"` it
  returns 7 (`Client.NonceFromReply`).
- **The older manager can leave entries behind for good.** Its loop never
  drains the table when a connection ends
  (`src/hub/websocket_manager.rs:134-140`), its callers wait without a
  timer, and a call whose hand-off to the channel fails returns without
  removing its entry (`src/hub/websocket_manager.rs:58-61`). In each case
  the entry stays in the table, and nothing but a later frame carrying its
  id removes it.

`websocket_manager/connection.rs` and `websocket_manager/types.rs` also stand
in for the `connection` and `types` modules that `client.rs` imports from
its own directory. Those modules are not part of this model. The live
client's loop is taken to behave like `connection.rs`, with `Up` meaning
that its send half is present. The function nested in `websocket_manager.rs`
(lines 152-158) is the same as `utils.rs`, so `Salvage.ExtractId` serves
both.

## Model

| member | source | states |
|---|---|---|
| Json.LookupIsLast | src/hub/utils.rs:8-10 | `Value::get` on an object: none exactly when no member has the key, otherwise the value of the LAST member with that key |
| Json.LookupAt | src/hub/utils.rs:8-10 | a member followed by no other member with its key is the value `get` returns |
| Json.Get | src/hub/clutch_node_client/client.rs:146 | `Value::get` finds a member exactly when the value is an object with a member under that key, and then it is the last such member |
| Json.AsU64 | src/hub/clutch_node_client/client.rs:146 | `as_u64` accepts exactly the integers in [0, 2^64) and returns that integer |
| Envelope.FieldOf | src/hub/websocket_manager/types.rs:11-17 | a struct field read by name is absent, unique (and then the looked-up value), or repeated exactly as the member count says |
| Envelope.EncodeRequest | src/hub/websocket_manager/types.rs:3-9 | a serialized request is an object of exactly the members `jsonrpc`, `method`, `params` and `id`, in that order, each with the envelope's value |
| Envelope.DecodeRequest | src/hub/websocket_manager/types.rs:3-9 | a decoded request object carries its `method`, `params` and `id` members unchanged; conversely, an object with each of the four members once, the three strings as strings, decodes |
| Envelope.RequestRoundTrip | src/hub/websocket_manager/types.rs:3-9 | every request envelope decodes back to itself after serialization |
| Envelope.EncodeError | src/hub/websocket_manager/types.rs:19-24 | a serialized error object is exactly `code`, `message` and `data`, in that order, with `None` data written as `null` |
| Envelope.DecodeError | src/hub/websocket_manager/types.rs:19-24 | only an object or a three-element array decodes; in an object the `i32` code and string message are required and are those members' values, and `data` is its member with `null` read as `None`; in an array they are the three items in that order; conversely, an object with an `i32` code and a string message decodes whether or not `data` is present (if not repeated), and so does a three-element array of that shape |
| Envelope.EncodeResponse | src/hub/websocket_manager/types.rs:11-17 | a serialized response is exactly `jsonrpc`, `result`, `error` and `id`, in that order, with `None` written as `null` and the error as its own object |
| Envelope.DecodeResponse | src/hub/websocket_manager/types.rs:11-17 | only an object or a four-element array decodes; an object form has exactly one `id`, that id and the `jsonrpc` string are what `get` reads, and `result` and `error` are read from their members with `null` or a missing member as absent; an `error` member that is neither `null` nor an error object fails the whole response; conversely, string `jsonrpc` and `id` found once, with `result` and `error` each missing, `null` or given once (the error as an error object), decode; in the array form the four items are the fields in order |
| Envelope.StandardErrorReplyDecodes | src/hub/websocket_manager/types.rs:11-24 | the standard error reply `{"jsonrpc":"2.0","error":{"code":c,"message":m},"id":id}`, with neither `result` nor `data`, decodes to that error with no result |
| Envelope.DecodeEncodedResponse | src/hub/websocket_manager/types.rs:11-24 | serializing then deserializing a response gives it back with every `Some(null)` turned into `None` |
| Envelope.ResponseRoundTrip | src/hub/websocket_manager/types.rs:11-24 | the response round trip is the identity exactly when no `Some(null)` is present |
| Envelope.NullResultIsAbsent | src/hub/websocket_manager/types.rs:14 | the reply `{"jsonrpc":j,"result":null,"id":id}` decodes with no result |
| Envelope.UnknownMembersIgnored | src/hub/websocket_manager/types.rs:11-17 | a member under any other key, inserted at any position, never changes the decoded response |
| Envelope.VersionNotChecked | src/hub/websocket_manager/types.rs:13 | any `jsonrpc` string is accepted and kept as is |
| Envelope.MalformedErrorRejectsResponse | src/hub/websocket_manager/types.rs:15 | whatever the other members, a non-null `error` member that is not an error object makes the whole response undecodable |
| Envelope.MalformedErrorBesideResult | src/hub/websocket_manager/types.rs:14-16 | a well-formed `jsonrpc`, `result` and `id` do not save a response with a malformed `error` |
| Envelope.RepeatedIdRejectsResponse | src/hub/websocket_manager/types.rs:16 | the object `{"jsonrpc":j,"id":a,"id":b}` fails struct decoding, while `get("id")` on it gives `b` |
| Salvage.ExtractId | src/hub/utils.rs:5-13 | an id is salvaged exactly when the text parses to an object whose last top-level `id` member is a string, and it is that string |
| Salvage.SalvageAgreesWithDecode | src/hub/utils.rs:5-13 | for an object that decodes as a response, the salvaged id is the decoded id |
| Salvage.OnlyTopLevelId | src/hub/utils.rs:8-10 | a member under any key other than `id`, inserted at any position and nested ids included, never changes the salvaged id |
| Salvage.LastIdWins | src/hub/utils.rs:8-10 | when an object's members end with two `id` string members, after any prefix, the second is salvaged |
| Pending.Drain | src/hub/websocket_manager/connection.rs:69-73 | the drain loop empties the table and gives every pending caller the sentinel, and nobody else anything; its deliveries are those of `Drained` |
| Pending.Drained | src/hub/websocket_manager/connection.rs:69-73 | the drain resolves exactly the pending ids, each with the empty sentinel |
| Demux.OnFrame | src/hub/websocket_manager/connection.rs:38-59 | a frame removes only the entry of its own decoded or salvaged id; a removal is a resolution; a payload is the frame's text and echoes the receiving id |
| Demux.MatchedFrameResolves | src/hub/websocket_manager/connection.rs:40-44 | a decoded frame whose id is pending resolves exactly that entry with the frame text |
| Demux.UnmatchedFrameIgnored | src/hub/websocket_manager/connection.rs:45-48 | a decoded frame whose id is not pending changes nothing |
| Demux.MalformedFrameSalvage | src/hub/websocket_manager/connection.rs:50-57 | an undecodable frame drops the sender of the salvaged id, if pending, and changes nothing otherwise |
| Demux.EmptyFrameIgnored | src/hub/websocket_manager/connection.rs:50-57 | an empty text frame never touches the table |
| Supervisor.Take | src/hub/websocket_manager/manager.rs:94-95 | a caller's removal takes out only its own entry and drops its sender |
| Supervisor.EndEpoch | src/hub/websocket_manager/connection.rs:62-73 | an ended epoch goes `Down`; the draining loop empties the table and abandons every pending caller, the older loop keeps every entry and resolves nobody |
| Supervisor.Route | src/hub/websocket_manager/connection.rs:38-59 | a frame changes only the table, removing only entries it addresses, each payload echoing its receiver |
| Supervisor.Step | src/hub/websocket_manager/connection.rs:20-84 | removal equals resolution; only a fresh registration adds an entry, and it does add its id; a withdrawal removes its id; a failed write or both branches disabled empties the table and abandons every caller (draining) or only goes `Down` (older loop); a failed attempt changes nothing; every payload but the sentinel echoes its receiver |
| Supervisor.ResolvedWerePending | src/hub/websocket_manager/connection.rs:20-84 | everything a run resolves was pending at its start or registered during it |
| Supervisor.AtMostOnce | src/hub/websocket_manager/connection.rs:40-73 | for either loop, no id is resolved by two events of the same run |
| Supervisor.RepliesReachTheirCallers | src/hub/websocket_manager/connection.rs:40-73 | every payload of every run echoes its receiver's id, or is the sentinel of the draining loop |
| Supervisor.StaysAbsent | src/hub/websocket_manager/manager.rs:42-45 | an id not in the table stays out while nobody registers it |
| Supervisor.PendingWereRegistered | src/hub/websocket_manager/manager.rs:42-45 | only registration puts ids in the table |
| Supervisor.NoLeak | src/hub/websocket_manager/manager.rs:92-97 | if every registration is later withdrawn, as on a timeout, the run ends with no entry beyond those it started with |
| Supervisor.WithdrawnStaysAbsent | src/hub/websocket_manager/manager.rs:92-97 | a withdrawal not undone by a later registration keeps the id out to the end |
| Supervisor.LoopsAgreeOutsideEpochEnd | src/hub/websocket_manager.rs:100-139 | the older loop and the draining loop take the same step on every event except the end of an epoch |
| Supervisor.ReconnectLoop | src/hub/websocket_manager/connection.rs:75-83 | failed and successful attempts leave the table alone; a failure stays `Down` |
| Supervisor.InboundEndKeepsEpoch | src/hub/websocket_manager/connection.rs:28-67 | an inbound end with the outbound branch enabled neither ends the epoch nor resolves anybody |
| Supervisor.Await | src/hub/websocket_manager/manager.rs:65-98 | a caller is woken only by the removal of its own entry; a payload it receives is the sentinel of the draining loop or echoes its id |
| Supervisor.AwaitIsFirstResolution | src/hub/websocket_manager/manager.rs:65-98 | a caller stays unresolved exactly when no event of its world resolves its id, and then the world has run to its end; otherwise it observes the first delivery to its id |
| Supervisor.ReachedBy | src/hub/websocket_manager/connection.rs:20-84 | while only events that cannot resolve an id have happened, the id is still pending and unresolved, and the next event is taken from the state reached |
| Supervisor.SparedThroughout | src/hub/websocket_manager/connection.rs:20-84 | no event of a run made only of events that cannot resolve an id resolves it |
| Reply.Describe | src/hub/websocket_manager/manager.rs:61-96 | the remote's message and the bare channel error reach the caller verbatim; a send failure ends with the channel's error text; every other message is non-empty |
| Reply.DescribeDistinguishes | src/hub/websocket_manager/manager.rs:61-96 | apart from the remote's message and the bare channel error, two failures read the same exactly when they are the same failure |
| Reply.SendFailedStandsOut | src/hub/websocket_manager/manager.rs:61-96 | a send failure never reads like one of the fixed messages |
| Reply.Outcome | src/hub/websocket_manager/manager.rs:67-91 | a dropped sender, and only that, gives "Failed to receive response"; the sentinel, and only that, gives "Connection lost before receiving response" |
| Reply.Interpret | src/hub/websocket_manager/manager.rs:68-86 | the sentinel alone gives connection lost; decode failure and id mismatch are told apart; for a reply to this call, its error message, else its result, else "No result or error in response" |
| Reply.InterpretReply | src/hub/websocket_manager/manager.rs:75-86 | for a served response: mismatch, then the remote error even beside a result, then a non-null result, else "No result or error in response" |
| Reply.ErrorWinsOverResult | src/hub/websocket_manager/manager.rs:80-83 | a reply with both `error` and `result` is an error |
| Manager.BuildRequest | src/hub/websocket_manager/manager.rs:47-52 | the request on the wire names version "2.0", the method and the fresh id, and carries `params` unchanged |
| Manager.Exchange | src/hub/websocket_manager/manager.rs:42-98 | with the request built: the entry never outlives the call; no mismatch or decode error reaches the caller; a refused hand-off fails with the table as before; what is sent is the encoded request; once sent, "Request timed out" exactly when no event of the world resolves the id (the table then as the world left it, minus the entry), otherwise the outcome of the first delivery to the id |
| Manager.EchoingReplyIsInterpreted | src/hub/websocket_manager/manager.rs:65-86 | a reply that decodes and echoes the request's id, reaching a live connection after only events that cannot resolve the call, is classified into the caller's result |
| Manager.SendRequest | src/hub/websocket_manager/manager.rs:34-98 | the entry never outlives the call; no mismatch or decode error reaches the caller; a refused hand-off fails with the table as before; what is sent is the encoded envelope; once sent, "Request timed out" exactly when no event resolves the id, otherwise the outcome of the first delivery to the id |
| Manager.ForwardsParams | src/hub/websocket_manager/manager.rs:47-52 | the request on the wire decodes to method, params and id exactly as given |
| Manager.AbandonedCallerSeesConnectionLost | src/hub/websocket_manager/manager.rs:69-72 | an epoch that ends during the wait, after only events that cannot resolve the call, yields "Connection lost before receiving response" |
| Manager.MatchingReplyReturnsResult | src/hub/websocket_manager/manager.rs:75-86 | an echoing reply with a result, reaching a live connection after only events that cannot resolve the call, returns that result |
| Manager.SilenceTimesOut | src/hub/websocket_manager/manager.rs:92-97 | a world of events that cannot resolve the call means "Request timed out", and the table is as the world left it minus the call's entry |
| Client.BuildRequest | src/hub/clutch_node_client/client.rs:51-72 | `send_raw_transaction` sends its params as a JSON string (the given string, else empty); other methods send params unchanged |
| Client.ShapingDiffersOnlyForRawTransaction | src/hub/clutch_node_client/client.rs:51-72 | the client's envelope differs from the manager's exactly for a non-string `send_raw_transaction` params |
| Client.SendRequest | src/hub/clutch_node_client/client.rs:42-138 | without a send half: "not connected", table untouched; otherwise as the manager, with a failed write removing the entry and leaving the epoch up; once written, "Request timed out" exactly when no event resolves the id, otherwise the outcome of the first delivery to the id |
| Client.RawTransactionOnTheWire | src/hub/clutch_node_client/client.rs:53-63 | a string given to `send_raw_transaction` is the frame's `params` member |
| Client.NonceOf | src/hub/clutch_node_client/client.rs:143-163 | the nonce is the result's u64 `nonce` member, and 1 on any failure or missing or ill-typed member |
| Client.GetNextNonce | src/hub/clutch_node_client/client.rs:141-164 | the nonce is `NonceOf` the call's result: the result's u64 `nonce` member, 1 whenever the call fails |
| Client.EchoingReplyIsInterpreted | src/hub/clutch_node_client/client.rs:100-123 | a single echoing reply is classified as the result |
| Client.SalvagedReplyDropsCaller | src/hub/clutch_node_client/client.rs:124-127 | in the one-frame world whose frame does not decode but carries the call's id, the call ends with "Failed to receive response" |
| Client.NonceInResult | src/hub/clutch_node_client/client.rs:146-150 | a result object whose last `nonce` member is the u64 n yields n, whatever its other members |
| Client.NonceAbsentFallsBack | src/hub/clutch_node_client/client.rs:151-155 | a result object with no `nonce` member yields 1 |
| Client.NonceFromReply | src/hub/clutch_node_client/client.rs:141-150 | the reply `{"jsonrpc":"2.0","result":{"nonce":n},"id":id}` gives n |
| Client.NonceMissingFallsBack | src/hub/clutch_node_client/client.rs:151-155 | the reply whose result is the empty object `{}` gives 1 |
| Client.NonceWithoutVersionFallsBack | src/hub/clutch_node_client/client.rs:158-162 | the same reply without `jsonrpc` fails and gives 1 |
| Legacy.EntriesSurviveReconnect | src/hub/websocket_manager.rs:98-150 | without frames, a run keeps every entry and resolves nobody, across any number of reconnects |
| Legacy.Interpret | src/hub/websocket_manager.rs:64-83 | as the newer classification on every non-empty text; a decode error exactly when the text does not decode, the empty text included |
| Legacy.Outcome | src/hub/websocket_manager.rs:64-83 | a dropped sender, and only that, gives "Failed to receive response"; any other non-empty payload is classified as in the newer managers |
| Legacy.SendRequest | src/hub/websocket_manager.rs:36-84 | a refused hand-off reports the bare channel error and leaves the entry in the table; after sending, a result exists exactly when the entry is gone; never a mismatch or decode error; once sent, the caller is still waiting exactly when no event resolves its id, otherwise its result is the outcome of the first delivery to the id |
| Legacy.CallerOutlivesConnection | src/hub/websocket_manager.rs:134-149 | a connection that closes and reopens leaves the caller waiting with its entry in place |
| Legacy.ReplyAfterReconnect | src/hub/websocket_manager.rs:110-117 | a reply on the next connection still reaches its caller |
| Legacy.AwaitAcrossReconnect | src/hub/websocket_manager.rs:134-149 | across a close and reopen, the first matching frame resolves the waiting entry |

## Left out

- Transport I/O is not modelled byte by byte. That covers the WebSocket
  handshake, frame encoding and the socket itself. Its effects appear as
  events: a connection attempt's outcome, a write's outcome, an inbound frame
  and the end of the stream.
- JSON text is not parsed or printed character by character. A text is
  either the printing of a value or a text that does not parse.
  - serde's error messages are not modelled. A decode error is
    `Reply.Malformed`, and `Reply.Describe` has no text for it.
  - Float literals are carried as text, because no arithmetic is done on
    them.
- UUID generation is not modelled. Ids are parameters, and `State.issued`
  stands for the assumption that a generated id is never generated again.
- Concurrency is not modelled. Each table operation happens under the
  table's mutex, so every event is atomic. How tokio interleaves events is
  the choice of the event sequence. The live client holds its sink lock
  across the whole call, which serialises its own callers. That is not
  modelled, and nothing proved here depends on it.
- Clocks are not modelled, so neither is the 10-second timeout nor the
  5-second back-off. A timer firing is the end of the caller's `world`
  sequence, and the back-off is time spent `Down`.
- The outbound channel's contents and its capacity of 100 are not modelled
  (`src/hub/websocket_manager/manager.rs:18`). A hand-off is accepted or
  refused with a detail text, which is "channel closed" in practice. In the
  newer manager a request only leaves the channel on a `Write`. While the
  channel is full, `send().await` blocks (`manager.rs:57-61`), and the caller
  waits with no timer running, since the timeout only starts at line 65.
  `Manager.Handoff` has no blocked state, so such a wait is not modelled.
- The serialization of a request cannot fail, so its `?` branch is left out.
- Cancellation is not modelled. A caller whose future is dropped at an
  await point (`src/hub/websocket_manager/manager.rs:57`, `:65`;
  `src/hub/clutch_node_client/client.rs:90`, `:98`) never runs its removal.
  Its entry then stays until a frame addressed to it or the next drain
  removes it, so the no-leak results cover only calls that complete.
- Logging (`info!`, `error!`) has no effect on behaviour and is left out.
- The client's own connection module is not part of this model.
  `connection.rs` stands in for it, as described above.
- `src/websocket_manager.rs`, the GraphQL layer, authentication,
  configuration and the server glue are outside the correlation layer.

## Findings

| source | as written | input that shows it | evidently intended | confidence | as-written member | corrected member |
|---|---|---|---|---|---|---|
| src/hub/websocket_manager.rs:58-61 | a failed hand-off to the outbound channel returns the bare channel error and leaves the caller's entry in the table | a call whose request the channel refuses: its id stays pending and nothing ever removes it | remove the entry before failing, as `manager.rs:57-62` does | not executed | Legacy.SendRequest | Manager.SendRequest |
| src/hub/websocket_manager.rs:134-140 | an ended epoch only leaves the inner loop; the table is never drained and there is no timeout, so a caller whose reply is lost with the connection waits for ever | `[Closed, ConnectOk]` while a call waits: it is still waiting, entry in place | drain every entry with the sentinel when the epoch ends, as `connection.rs:69-73` does | not executed | Legacy.CallerOutlivesConnection | Manager.AbandonedCallerSeesConnectionLost |

=== FILE: client.dfy ===
/**
  The live node client (`clutch_node_client/client.rs`). Unlike the manager
  it writes to the socket itself, only while a send half is live, registers
  its entry only then, and reshapes the parameters of one method. Its own
  connection loop is not part of this model; the channel-based loop of
  `connection.rs` stands in for it, with `Up` meaning that the send half is
  present.
 */
module Client {
  import opened Json
  import opened Envelope
  import opened Pending
  import opened Salvage
  import opened Demux
  import opened Supervisor
  import opened Reply
  import Manager

  /** The one method whose parameters travel as a bare string. */
  const RawTransaction: string := "send_raw_transaction"

  /** The request envelope. For `send_raw_transaction` the params become a
      JSON string: the caller's string if it gave one, the empty string for
      anything else (`as_str()` is `None` and the default applies). Every
      other method sends its params unchanged. */
  function BuildRequest(methodName: string, params: Value, id: Id): (r: Request)
    ensures r.jsonrpc == "2.0" && r.methodName == methodName && r.id == id
    ensures methodName != RawTransaction ==> r.params == params
    ensures methodName == RawTransaction ==> r.params.JString?
    ensures params.JString? ==> r.params == params
    ensures methodName == RawTransaction && !params.JString? ==> r.params == JString("")
  {
    if methodName == RawTransaction then
      var raw := match params
        case JString(s) => s
        case _ => match AsStr(params) case Some(s) => s case None => "";
      Request(Version, methodName, JString(raw), id)
    else
      Request(Version, methodName, params, id)
  }

  /** The client and the manager build the same envelope except for a
      non-string `params` of `send_raw_transaction`. */
  lemma ShapingDiffersOnlyForRawTransaction(methodName: string, params: Value, id: Id)
    ensures BuildRequest(methodName, params, id) == Manager.BuildRequest(methodName, params, id)
      <==> methodName != RawTransaction || params.JString?
  {
  }

  /** `send_request`: the id is generated first; without a live send half
      the call fails before touching the table; otherwise the entry is
      registered, the frame written, and the reply awaited for at most 10
      seconds. */
  function SendRequest(s: State, id: Id, methodName: string, params: Value, write: Manager.Handoff,
                       world: seq<Event>): (c: Manager.CallRun)
    requires Valid(s) && id !in s.issued
    // not connected: an error, and the table is as it was
    ensures s.link == Down ==>
      c.result == Err(NotConnected) && c.sent.None? && c.state.pending == s.pending && c.state.link == Down
    // nothing is written while disconnected
    ensures c.sent.Some? ==> s.link == Up && write.Accepted?
    // what goes on the wire is the encoded envelope of this call
    ensures c.sent.Some? ==> c.sent.value == EncodeRequest(BuildRequest(methodName, params, id))
    // the entry never outlives the call
    ensures id !in c.state.pending
    // a failed write removes the entry again and changes nothing else
    ensures s.link == Up && write.Refused? ==>
      c.result == Err(SendFailed(write.detail)) && c.state.pending == s.pending && c.state.link == Up
    // composed with the connection loop, a payload always decodes and echoes this id
    ensures c.result != Err(MismatchedId) && c.result != Err(Malformed)
    // once the frame is written, the timer fires exactly when no event of the
    // world resolves the id, and then the world has run to its end
    ensures s.link == Up && write.Accepted? ==>
      var s1 := Step(Draining, s, Register(id)).state;
      (c.result == Err(TimedOut) <==> Untouched(Draining, s1, world, id))
      && (c.result == Err(TimedOut) ==> c.state.pending == Final(Draining, s1, world).pending - {id})
    // otherwise the result is made of what the first event resolving the id delivered
    ensures s.link == Up && write.Accepted? ==>
      var s1 := Step(Draining, s, Register(id)).state;
      forall i :: FirstResolves(Draining, s1, world, id, i) ==>
        c.result == Outcome(Log(Draining, s1, world)[i][id], id)
  {
    if s.link == Down then
      Manager.CallRun(s.(issued := s.issued + {id}), None, Err(NotConnected))
    else
      Manager.Exchange(s, BuildRequest(methodName, params, id), write, world)
  }

  /** A bare string given to `send_raw_transaction` is exactly the `params`
      member of the frame on the wire. */
  lemma RawTransactionOnTheWire(s: State, id: Id, tx: string, world: seq<Event>)
    requires Valid(s) && id !in s.issued && s.link == Up
    ensures var c := SendRequest(s, id, RawTransaction, JString(tx), Manager.Accepted, world);
      c.sent.Some? && Get(c.sent.value, "params") == Some(JString(tx))
  {
  }

  // ---------------------------------------------------------------- nonce

  /** The nonce read from a call's result: the `nonce` member when it is an
      unsigned 64-bit integer (0 included), and 1 in every other case. */
  function NonceOf(r: CallResult): (n: nat)
    ensures n < 0x1_0000_0000_0000_0000
    ensures r.Ok? && Get(r.value, "nonce").Some? && AsU64(Get(r.value, "nonce").value).Some? ==>
      n == AsU64(Get(r.value, "nonce").value).value
    ensures r.Err? ==> n == 1
    ensures r.Ok? && (Get(r.value, "nonce").None? || AsU64(Get(r.value, "nonce").value).None?) ==> n == 1
  {
    match r
    case Ok(v) =>
      (match Get(v, "nonce")
       case Some(x) => (match AsU64(x) case Some(n) => n case None => 1)
       case None => 1)
    case Err(_) => 1
  }

  function NonceParams(address: string): Value
  {
    JObject([("address", JString(address))])
  }

  /** `get_next_nonce`: ask the node with `{"address": address}` and never
      fail. */
  function GetNextNonce(s: State, id: Id, address: string, write: Manager.Handoff, world: seq<Event>): (r: (nat, Manager.CallRun))
    requires Valid(s) && id !in s.issued
    ensures r.0 < 0x1_0000_0000_0000_0000
    ensures r.1 == SendRequest(s, id, "get_next_nonce", NonceParams(address), write, world)
    ensures r.1.result.Err? ==> r.0 == 1
    // a successful call yields the result's u64 `nonce` member, 0 included
    ensures r.0 == NonceOf(r.1.result)
  {
    var c := SendRequest(s, id, "get_next_nonce", NonceParams(address), write, world);
    (NonceOf(c.result), c)
  }

  /** A single reply that decodes and echoes the call's id is what the
      caller's result is made of. */
  lemma EchoingReplyIsInterpreted(s: State, id: Id, methodName: string, params: Value, t: Text)
    requires Valid(s) && id !in s.issued && s.link == Up && Echoes(t, id)
    ensures SendRequest(s, id, methodName, params, Manager.Accepted, [Receive(TextFrame(t))]).result
      == Interpret(t, id)
  {
    Manager.EchoingReplyIsInterpreted(s, BuildRequest(methodName, params, id), t, [Receive(TextFrame(t))], 0);
  }

  /** A single frame that does not decode but carries the call's id drops
      the caller's sender. */
  lemma SalvagedReplyDropsCaller(s: State, id: Id, methodName: string, params: Value, t: Text)
    requires Valid(s) && id !in s.issued && s.link == Up
    requires Decoded(t).None? && ExtractId(t) == Some(id)
    ensures SendRequest(s, id, methodName, params, Manager.Accepted, [Receive(TextFrame(t))]).result
      == Err(ReceiveFailed)
  {
    var s1 := Step(Draining, s, Register(id)).state;
    MalformedFrameSalvage(s1.pending, t);
  }

  /** The members of a reply with the three fields, in the order serde
      prints them. */
  function ReplyMembers(result: Value, id: Id): seq<(string, Value)>
  {
    [("jsonrpc", JString("2.0")), ("result", result), ("id", JString(id))]
  }

  /** Such a reply decodes to the envelope it spells out. */
  lemma ReplyMembersDecode(result: Value, id: Id)
    requires result != JNull
    ensures Decoded(Printed(JObject(ReplyMembers(result, id)))) == Some(Response("2.0", Some(result), None, id))
  {
    var ms := ReplyMembers(result, id);
    UniqueAt(ms, 0, "jsonrpc");
    UniqueAt(ms, 1, "result");
    UniqueAt(ms, 2, "id");
    CountZero(ms, "error");
  }

  /** A reply `{"jsonrpc": "2.0", "result": {"nonce": n}, "id": id}` yields n. */
  lemma NonceFromReply(s: State, id: Id, address: string, n: nat)
    requires Valid(s) && id !in s.issued && s.link == Up && n < 0x1_0000_0000_0000_0000
    ensures GetNextNonce(s, id, address, Manager.Accepted,
      [Receive(TextFrame(Printed(JObject(ReplyMembers(JObject([("nonce", JNumber(Int(n)))]), id)))))]).0 == n
  {
    var result := JObject([("nonce", JNumber(Int(n)))]);
    var t := Printed(JObject(ReplyMembers(result, id)));
    var world := [Receive(TextFrame(t))];
    var r := GetNextNonce(s, id, address, Manager.Accepted, world);
    assert r.1 == SendRequest(s, id, "get_next_nonce", NonceParams(address), Manager.Accepted, world);
    ReplyMembersDecode(result, id);
    assert Interpret(t, id) == Ok(result);
    EchoingReplyIsInterpreted(s, id, "get_next_nonce", NonceParams(address), t);
    NonceInResult([("nonce", JNumber(Int(n)))], 0, n);
  }

  /** A result object whose last `nonce` member is a u64 yields that nonce,
      whatever its other members. */
  lemma NonceInResult(ms: seq<(string, Value)>, i: nat, n: nat)
    requires i < |ms| && ms[i] == ("nonce", JNumber(Int(n))) && n < 0x1_0000_0000_0000_0000
    requires forall j :: i < j < |ms| ==> ms[j].0 != "nonce"
    ensures NonceOf(Ok(JObject(ms))) == n
  {
    LookupAt(ms, i, "nonce");
  }

  /** A result object with no `nonce` member at all yields the fallback 1. */
  lemma NonceAbsentFallsBack(ms: seq<(string, Value)>)
    requires forall j :: 0 <= j < |ms| ==> ms[j].0 != "nonce"
    ensures NonceOf(Ok(JObject(ms))) == 1
  {
    CountZero(ms, "nonce");
  }

  /** An empty result object carries no nonce: the fallback 1. */
  lemma NonceMissingFallsBack(s: State, id: Id, address: string)
    requires Valid(s) && id !in s.issued && s.link == Up
    ensures GetNextNonce(s, id, address, Manager.Accepted,
      [Receive(TextFrame(Printed(JObject(ReplyMembers(JObject([]), id)))))]).0 == 1
  {
    var t := Printed(JObject(ReplyMembers(JObject([]), id)));
    ReplyMembersDecode(JObject([]), id);
    EchoingReplyIsInterpreted(s, id, "get_next_nonce", NonceParams(address), t);
    assert Interpret(t, id) == Ok(JObject([]));
  }

  /** The same reply without the required `jsonrpc` member does not decode;
      its id is salvaged, the caller's sender is dropped, and the nonce falls
      back to 1. */
  lemma NonceWithoutVersionFallsBack(s: State, id: Id, address: string, n: nat)
    requires Valid(s) && id !in s.issued && s.link == Up
    ensures var c := GetNextNonce(s, id, address, Manager.Accepted,
      [Receive(TextFrame(Printed(JObject([
        ("result", JObject([("nonce", JNumber(Int(n)))])), ("id", JString(id))]))))]);
      c.0 == 1 && c.1.result == Err(ReceiveFailed)
  {
    var ms := [("result", JObject([("nonce", JNumber(Int(n)))])), ("id", JString(id))];
    var t := Printed(JObject(ms));
    assert FieldOf(ms, "jsonrpc") == Absent;
    assert Decoded(t).None?;
    UniqueAt(ms, 1, "id");
    assert ExtractId(t) == Some(id);
    SalvagedReplyDropsCaller(s, id, "get_next_nonce", NonceParams(address), t);
  }
}

=== FILE: demux.dfy ===
/**
  The inbound demultiplexer: what the connection loop does with one frame
  read from the socket (`connection.rs`, and identically the older
  `websocket_manager.rs`).
 */
module Demux {
  import opened Json
  import opened Envelope
  import opened Salvage
  import opened Pending

  /** A frame read from the socket: a text frame, or any other kind (binary,
      ping, pong, close), which the loop ignores. */
  datatype Frame = TextFrame(text: Text) | OtherFrame

  /** The table after one frame and what the removed entries' callers got. */
  datatype Routed = Routed(pending: set<Id>, out: map<Id, Delivery>)

  /** The one entry a frame may concern: the id it decodes with, or else the
      id salvaged from it. */
  function Addressee(f: Frame): Option<Id>
  {
    match f
    case OtherFrame => None
    case TextFrame(t) =>
      match Parse(t)
      case Some(v) =>
        (match DecodeResponse(v)
         case Some(r) => Some(r.id)
         case None => ExtractId(t))
      case None => ExtractId(t)
  }

  function OnFrame(pending: set<Id>, f: Frame): (r: Routed)
    // an entry leaves the table exactly when its caller is resolved
    ensures r.out.Keys == pending - r.pending
    ensures r.pending <= pending
    // a frame touches no entry but its own
    ensures forall k :: k in pending - r.pending ==> Addressee(f) == Some(k)
    // the payload delivered is the frame's own text, which echoes the key
    ensures forall k :: k in r.out && r.out[k].Payload? ==>
      f.TextFrame? && r.out[k].text == f.text && Echoes(f.text, k)
  {
    match f
    case OtherFrame => Routed(pending, map[])
    case TextFrame(t) =>
      var decoded := match Parse(t) case Some(v) => DecodeResponse(v) case None => None;
      match decoded
      case Some(resp) =>
        if resp.id in pending then Routed(pending - {resp.id}, map[resp.id := Payload(t)])
        else Routed(pending, map[])
      case None =>
        match ExtractId(t)
        case Some(k) =>
          if k in pending then Routed(pending - {k}, map[k := Dropped]) else Routed(pending, map[])
        case None => Routed(pending, map[])
  }

  /** A frame that decodes with a pending id resolves that entry, and only
      it, with the exact frame text. */
  lemma MatchedFrameResolves(pending: set<Id>, t: Text, k: Id)
    requires Echoes(t, k) && k in pending
    ensures OnFrame(pending, TextFrame(t)) == Routed(pending - {k}, map[k := Payload(t)])
  {
  }

  /** A frame that decodes with an id nobody waits for is discarded. */
  lemma UnmatchedFrameIgnored(pending: set<Id>, t: Text, k: Id)
    requires Echoes(t, k) && k !in pending
    ensures OnFrame(pending, TextFrame(t)) == Routed(pending, map[])
  {
  }

  /** A text frame that does not decode drops the sender of the salvaged id
      (if that id is pending) and sends it nothing; with no salvaged id the
      table is left alone. */
  lemma MalformedFrameSalvage(pending: set<Id>, t: Text)
    requires Parse(t).None? || DecodeResponse(Parse(t).value).None?
    ensures ExtractId(t).None? ==> OnFrame(pending, TextFrame(t)) == Routed(pending, map[])
    ensures ExtractId(t).Some? ==>
      var k := ExtractId(t).value;
      OnFrame(pending, TextFrame(t)) ==
        if k in pending then Routed(pending - {k}, map[k := Dropped]) else Routed(pending, map[])
  {
  }

  /** The empty text, in particular, never touches the table. */
  lemma EmptyFrameIgnored(pending: set<Id>)
    ensures OnFrame(pending, TextFrame(Empty)) == Routed(pending, map[])
  {
  }
}

=== FILE: envelope.dfy ===
/**
  The JSON-RPC 2.0 envelopes of `types.rs` (the Request object of section 4,
  the Response object of section 5 and the Error object of section 5.1 of the
  JSON-RPC 2.0 specification) and the rules by which serde's derived
  `Serialize`/`Deserialize` map them to and from JSON values.

  Decoding follows serde's derive for a struct:
  - an object supplies the fields by name; members with other names are
    ignored (there is no `deny_unknown_fields`), a known name given twice is
    an error, a missing `Option` field is `None`, any other missing field is
    an error;
  - an array supplies the fields by position and must have exactly one
    element per field;
  - an `Option` field holding JSON `null` is `None`.
 */
module Envelope {
  import opened Json

  newtype i32 = x: int | -0x8000_0000 <= x < 0x8000_0000

  /** The protocol version every request carries. */
  const Version: string := "2.0"

  datatype Request = Request(jsonrpc: string, methodName: string, params: Value, id: string)

  datatype RpcError = RpcError(code: i32, message: string, data: Option<Value>)

  datatype Response = Response(jsonrpc: string, result: Option<Value>, error: Option<RpcError>, id: string)

  /** How often a struct field is named among an object's members. */
  datatype Field = Absent | Unique(value: Value) | Repeated

  function FieldOf(ms: seq<(string, Value)>, key: string): (f: Field)
    ensures f.Absent? <==> Lookup(ms, key).None?
    ensures f.Unique? ==> Lookup(ms, key) == Some(f.value) && Count(ms, key) == 1
    ensures f.Repeated? <==> Count(ms, key) > 1
  {
    var n := Count(ms, key);
    if n == 0 then Absent
    else if n == 1 then Unique(Lookup(ms, key).value)
    else Repeated
  }

  /** A key carried by exactly one member is that member's field. */
  lemma {:induction false} UniqueAt(ms: seq<(string, Value)>, i: nat, key: string)
    requires i < |ms| && ms[i].0 == key
    requires forall j :: 0 <= j < |ms| && j != i ==> ms[j].0 != key
    ensures FieldOf(ms, key) == Unique(ms[i].1)
  {
    CountUnique(ms, i, key);
    LookupAt(ms, i, key);
  }

  lemma {:induction false} CountUnique(ms: seq<(string, Value)>, i: nat, key: string)
    requires i < |ms| && ms[i].0 == key
    requires forall j :: 0 <= j < |ms| && j != i ==> ms[j].0 != key
    ensures Count(ms, key) == 1
  {
    if i > 0 {
      assert forall j :: 0 <= j < |ms[1..]| && j != i - 1 ==> ms[1..][j] == ms[j + 1];
      CountUnique(ms[1..], i - 1, key);
    } else {
      assert forall j :: 0 <= j < |ms[1..]| ==> ms[1..][j] == ms[j + 1];
      CountZero(ms[1..], key);
    }
  }

  /** A key carried by two members is a repeated field. */
  lemma {:induction false} RepeatedAt(ms: seq<(string, Value)>, i: nat, j: nat, key: string)
    requires i < j < |ms| && ms[i].0 == key && ms[j].0 == key
    ensures FieldOf(ms, key) == Repeated
  {
    CountAtLeastTwo(ms, i, j, key);
  }

  lemma {:induction false} CountAtLeastTwo(ms: seq<(string, Value)>, i: nat, j: nat, key: string)
    requires i < j < |ms| && ms[i].0 == key && ms[j].0 == key
    ensures Count(ms, key) >= 2
  {
    if i > 0 {
      CountAtLeastTwo(ms[1..], i - 1, j - 1, key);
    } else {
      assert ms[1..][j - 1].0 == key;
      CountZero(ms[1..], key);
    }
  }

  /** A field that must be present exactly once. */
  function Required(f: Field): Option<Value>
  {
    match f
    case Unique(v) => Some(v)
    case _ => None
  }

  /** An `Option` field: a missing one reads as `null`; a repeated one fails. */
  function Optional(f: Field): (o: Option<Value>)
    ensures o.Some? ==> (f.Absent? && o.value == JNull) || f == Unique(o.value)
  {
    match f
    case Absent => Some(JNull)
    case Unique(v) => Some(v)
    case Repeated => None
  }

  /** Deserializing an `i32`: an integer literal within 32 bits. */
  function I32Of(v: Value): Option<i32>
  {
    match v
    case JNumber(Int(i)) => if -0x8000_0000 <= i < 0x8000_0000 then Some(i as i32) else None
    case _ => None
  }

  /** Deserializing an `Option<serde_json::Value>`: `null` is `None`. */
  function Nullable(v: Value): Option<Value>
  {
    if v == JNull then None else Some(v)
  }

  /** Serializing an `Option<serde_json::Value>`: `None` is `null`. */
  function OrNull(o: Option<Value>): Value
  {
    match o
    case None => JNull
    case Some(v) => v
  }

  // ---------------------------------------------------------------- Request

  /** Serializing a request: an object of exactly four members, in the
      order the struct declares them, each found once under its own name. */
  function EncodeRequest(r: Request): (v: Value)
    ensures v.JObject? && |v.members| == 4
    ensures v.members[0].0 == "jsonrpc" && v.members[1].0 == "method"
            && v.members[2].0 == "params" && v.members[3].0 == "id"
    ensures FieldOf(v.members, "jsonrpc") == Unique(JString(r.jsonrpc))
    ensures FieldOf(v.members, "method") == Unique(JString(r.methodName))
    ensures FieldOf(v.members, "params") == Unique(r.params)
    ensures FieldOf(v.members, "id") == Unique(JString(r.id))
  {
    var ms := [("jsonrpc", JString(r.jsonrpc)), ("method", JString(r.methodName)),
               ("params", r.params), ("id", JString(r.id))];
    UniqueAt(ms, 0, "jsonrpc");
    UniqueAt(ms, 1, "method");
    UniqueAt(ms, 2, "params");
    UniqueAt(ms, 3, "id");
    JObject(ms)
  }

  function RequestFrom(jsonrpc: Value, methodName: Value, params: Value, id: Value): Option<Request>
  {
    var v :- AsStr(jsonrpc);
    var m :- AsStr(methodName);
    var i :- AsStr(id);
    Some(Request(v, m, params, i))
  }

  /** `serde_json::from_value::<JSONRPCRequest>`. `params` is a plain
      `Value`, so it may be `null` but may not be missing. */
  function DecodeRequest(v: Value): (r: Option<Request>)
    ensures r.Some? && v.JObject? ==>
      && Lookup(v.members, "params") == Some(r.value.params)
      && Lookup(v.members, "id") == Some(JString(r.value.id))
      && Lookup(v.members, "method") == Some(JString(r.value.methodName))
    // an object with each of the four members once, the three strings as strings, decodes
    ensures (v.JObject? && FieldOf(v.members, "jsonrpc").Unique? && FieldOf(v.members, "jsonrpc").value.JString?
             && FieldOf(v.members, "method").Unique? && FieldOf(v.members, "method").value.JString?
             && FieldOf(v.members, "params").Unique?
             && FieldOf(v.members, "id").Unique? && FieldOf(v.members, "id").value.JString?) ==> r.Some?
  {
    match v
    case JObject(ms) =>
      var jsonrpc :- Required(FieldOf(ms, "jsonrpc"));
      var methodName :- Required(FieldOf(ms, "method"));
      var params :- Required(FieldOf(ms, "params"));
      var id :- Required(FieldOf(ms, "id"));
      RequestFrom(jsonrpc, methodName, params, id)
    case JArray(items) =>
      if |items| == 4 then RequestFrom(items[0], items[1], items[2], items[3]) else None
    case _ => None
  }

  /** Every request envelope survives serialization and deserialization. */
  lemma RequestRoundTrip(r: Request)
    ensures DecodeRequest(EncodeRequest(r)) == Some(r)
  {
  }

  // ---------------------------------------------------------------- Error object

  /** Serializing an error object: exactly `code`, `message` and `data`, in
      that order; `data` is written even when it is `None`. */
  function EncodeError(e: RpcError): (v: Value)
    ensures v.JObject? && |v.members| == 3
    ensures v.members[0].0 == "code" && v.members[1].0 == "message" && v.members[2].0 == "data"
    ensures FieldOf(v.members, "code") == Unique(JNumber(Int(e.code as int)))
    ensures FieldOf(v.members, "message") == Unique(JString(e.message))
    ensures FieldOf(v.members, "data") == Unique(OrNull(e.data))
  {
    var ms := [("code", JNumber(Int(e.code as int))), ("message", JString(e.message)),
               ("data", OrNull(e.data))];
    UniqueAt(ms, 0, "code");
    UniqueAt(ms, 1, "message");
    UniqueAt(ms, 2, "data");
    JObject(ms)
  }

  function ErrorFrom(code: Value, message: Value, data: Value): Option<RpcError>
  {
    var c :- I32Of(code);
    var m :- AsStr(message);
    Some(RpcError(c, m, Nullable(data)))
  }

  /** `JSONRPCError` deserialization: an `i32` code and a string message are
      required, `data` is optional. */
  function DecodeError(v: Value): (r: Option<RpcError>)
    ensures r.Some? ==> r.value.data != Some(JNull)
    ensures r.Some? ==> v.JObject? || (v.JArray? && |v.items| == 3)
    // the object form: an i32 `code` and a string `message` are required
    ensures r.Some? && v.JObject? ==>
      && Lookup(v.members, "code") == Some(JNumber(Int(r.value.code as int)))
      && Lookup(v.members, "message") == Some(JString(r.value.message))
      && r.value.data == (match Lookup(v.members, "data") case None => None case Some(d) => Nullable(d))
    // the array form: code, message and data by position
    ensures r.Some? && v.JArray? ==>
      && v.items[0] == JNumber(Int(r.value.code as int))
      && v.items[1] == JString(r.value.message)
      && r.value.data == Nullable(v.items[2])
    // conversely, `data` may be missing: an i32 `code` and a string `message` suffice
    ensures (v.JObject? && FieldOf(v.members, "code").Unique? && I32Of(FieldOf(v.members, "code").value).Some?
             && FieldOf(v.members, "message").Unique? && FieldOf(v.members, "message").value.JString?
             && !FieldOf(v.members, "data").Repeated?) ==> r.Some?
    ensures (v.JArray? && |v.items| == 3 && I32Of(v.items[0]).Some? && v.items[1].JString?) ==> r.Some?
  {
    match v
    case JObject(ms) =>
      var code :- Required(FieldOf(ms, "code"));
      var message :- Required(FieldOf(ms, "message"));
      var data :- Optional(FieldOf(ms, "data"));
      ErrorFrom(code, message, data)
    case JArray(items) =>
      if |items| == 3 then ErrorFrom(items[0], items[1], items[2]) else None
    case _ => None
  }

  // ---------------------------------------------------------------- Response

  /** Serializing a response: exactly its four fields, in declaration
      order; `None` is written as `null`, never omitted. */
  function EncodeResponse(r: Response): (v: Value)
    ensures v.JObject? && |v.members| == 4
    ensures v.members[0].0 == "jsonrpc" && v.members[1].0 == "result"
            && v.members[2].0 == "error" && v.members[3].0 == "id"
    ensures FieldOf(v.members, "jsonrpc") == Unique(JString(r.jsonrpc))
    ensures FieldOf(v.members, "result") == Unique(OrNull(r.result))
    ensures FieldOf(v.members, "error") ==
      Unique(match r.error case None => JNull case Some(e) => EncodeError(e))
    ensures FieldOf(v.members, "id") == Unique(JString(r.id))
  {
    var ms := [("jsonrpc", JString(r.jsonrpc)), ("result", OrNull(r.result)),
               ("error", match r.error case None => JNull case Some(e) => EncodeError(e)),
               ("id", JString(r.id))];
    UniqueAt(ms, 0, "jsonrpc");
    UniqueAt(ms, 1, "result");
    UniqueAt(ms, 2, "error");
    UniqueAt(ms, 3, "id");
    JObject(ms)
  }

  /** The `error` field: `null` is no error; anything else must decode as an
      error object or the whole response fails. */
  function ErrorSlot(v: Value): Option<Option<RpcError>>
  {
    if v == JNull then Some(None)
    else
      var e :- DecodeError(v);
      Some(Some(e))
  }

  function ResponseFrom(jsonrpc: Value, result: Value, error: Value, id: Value): (r: Option<Response>)
    ensures r.Some? ==>
      && jsonrpc == JString(r.value.jsonrpc) && id == JString(r.value.id)
      && r.value.result == Nullable(result)
      && r.value.error == (if error == JNull then None else DecodeError(error))
  {
    var v :- AsStr(jsonrpc);
    var e :- ErrorSlot(error);
    var i :- AsStr(id);
    Some(Response(v, Nullable(result), e, i))
  }

  /** `serde_json::from_str::<JSONRPCResponse>` on a text that parsed to `v`. */
  function DecodeResponse(v: Value): (r: Option<Response>)
    ensures r.Some? ==> r.value.result != Some(JNull)
    ensures r.Some? && r.value.error.Some? ==> r.value.error.value.data != Some(JNull)
    ensures r.Some? && v.JObject? ==>
      && Count(v.members, "id") == 1
      && Get(v, "id") == Some(JString(r.value.id))
      && Get(v, "jsonrpc") == Some(JString(r.value.jsonrpc))
    ensures r.Some? ==> v.JObject? || (v.JArray? && |v.items| == 4)
    // the object form: `result` and `error` are read from their members, `null` as absent
    ensures r.Some? && v.JObject? ==>
      && r.value.result == (match Lookup(v.members, "result") case None => None case Some(x) => Nullable(x))
      && r.value.error == (match Lookup(v.members, "error")
                           case None => None
                           case Some(x) => if x == JNull then None else DecodeError(x))
    // an `error` member that is neither `null` nor an error object fails the whole response
    ensures (v.JObject? && Lookup(v.members, "error").Some? && Lookup(v.members, "error").value != JNull
             && DecodeError(Lookup(v.members, "error").value).None?) ==> r.None?
    // conversely, `result` and `error` may be missing or `null`: string `jsonrpc`
    // and `id` members, each found once, and at most one `result` and `error`,
    // the latter `null` or an error object, suffice
    ensures (v.JObject? && WellFormedMembers(v.members)) ==> r.Some?
    // the array form: the four fields by position
    ensures r.Some? && v.JArray? ==>
      && v.items[0] == JString(r.value.jsonrpc) && v.items[3] == JString(r.value.id)
      && r.value.result == Nullable(v.items[1])
      && r.value.error == (if v.items[2] == JNull then None else DecodeError(v.items[2]))
    ensures (v.JArray? && |v.items| == 4 && v.items[0].JString? && v.items[3].JString?
             && (v.items[2] == JNull || DecodeError(v.items[2]).Some?)) ==> r.Some?
  {
    match v
    case JObject(ms) => ResponseFromMembers(ms)
    case JArray(items) =>
      if |items| == 4 then ResponseFrom(items[0], items[1], items[2], items[3]) else None
    case _ => None
  }

  /** The members of an object that `JSONRPCResponse` accepts: string
      `jsonrpc` and `id` found once each; `result` and `error` missing or
      found once, the `error` member `null` or an error object. */
  predicate WellFormedMembers(ms: seq<(string, Value)>)
  {
    && FieldOf(ms, "jsonrpc").Unique? && FieldOf(ms, "jsonrpc").value.JString?
    && FieldOf(ms, "id").Unique? && FieldOf(ms, "id").value.JString?
    && !FieldOf(ms, "result").Repeated?
    && !FieldOf(ms, "error").Repeated?
    && (Lookup(ms, "error").None? || Lookup(ms, "error").value == JNull
        || DecodeError(Lookup(ms, "error").value).Some?)
  }

  /** The object form of a response: fields by name. */
  function ResponseFromMembers(ms: seq<(string, Value)>): (r: Option<Response>)
    ensures r.Some? ==>
      && Count(ms, "id") == 1
      && Lookup(ms, "id") == Some(JString(r.value.id))
      && Lookup(ms, "jsonrpc") == Some(JString(r.value.jsonrpc))
    ensures r.Some? ==>
      r.value.result == (match Lookup(ms, "result") case None => None case Some(x) => Nullable(x))
    ensures r.Some? ==>
      r.value.error == (match Lookup(ms, "error")
                        case None => None
                        case Some(x) => if x == JNull then None else DecodeError(x))
    ensures (Lookup(ms, "error").Some? && Lookup(ms, "error").value != JNull
             && DecodeError(Lookup(ms, "error").value).None?) ==> r.None?
    ensures WellFormedMembers(ms) ==> r.Some?
  {
    var jsonrpc :- Required(FieldOf(ms, "jsonrpc"));
    var result :- Optional(FieldOf(ms, "result"));
    var error :- Optional(FieldOf(ms, "error"));
    var id :- Required(FieldOf(ms, "id"));
    ResponseFrom(jsonrpc, result, error, id)
  }

  /** The text `t` decodes to a response envelope whose `id` is `id`. */
  predicate Echoes(t: Text, id: string)
  {
    match Parse(t)
    case None => false
    case Some(v) => DecodeResponse(v).Some? && DecodeResponse(v).value.id == id
  }

  /** No JSON `null` sits where serialization would write `null` for `None`. */
  predicate NoNullPayload(r: Response)
  {
    && r.result != Some(JNull)
    && (r.error.Some? ==> r.error.value.data != Some(JNull))
  }

  /** What serde reads back from a response it wrote: every `Some(null)`
      becomes `None`, nothing else changes. */
  function Normalized(r: Response): Response
  {
    r.(result := Nullable(OrNull(r.result)),
       error := match r.error
                case None => None
                case Some(e) => Some(e.(data := Nullable(OrNull(e.data)))))
  }

  lemma ErrorRoundTrip(e: RpcError)
    ensures DecodeError(EncodeError(e)) == Some(e.(data := Nullable(OrNull(e.data))))
  {
  }

  lemma DecodeEncodedResponse(r: Response)
    ensures DecodeResponse(EncodeResponse(r)) == Some(Normalized(r))
  {
    var error := match r.error case None => JNull case Some(e) => EncodeError(e);
    assert ErrorSlot(error) == Some(Normalized(r).error) by {
      if r.error.Some? {
        ErrorRoundTrip(r.error.value);
      }
    }
  }

  /** A response envelope survives serialization and deserialization exactly
      when it carries no `Some(null)`: serde writes `None` as `null` and reads
      `null` back as `None`. */
  lemma ResponseRoundTrip(r: Response)
    ensures DecodeResponse(EncodeResponse(r)) == Some(r) <==> NoNullPayload(r)
  {
    DecodeEncodedResponse(r);
    assert Normalized(r) == r <==> NoNullPayload(r) by {
      if r.error.Some? {
        var e := r.error.value;
        assert e.(data := Nullable(OrNull(e.data))) == e <==> e.data != Some(JNull);
      }
    }
  }

  /** A `null` result reads as no result at all. */
  lemma NullResultIsAbsent(jsonrpc: string, id: string)
    ensures DecodeResponse(JObject([("jsonrpc", JString(jsonrpc)), ("result", JNull), ("id", JString(id))]))
      == Some(Response(jsonrpc, None, None, id))
  {
    var ms := [("jsonrpc", JString(jsonrpc)), ("result", JNull), ("id", JString(id))];
    UniqueAt(ms, 0, "jsonrpc");
    UniqueAt(ms, 1, "result");
    UniqueAt(ms, 2, "id");
    CountZero(ms, "error");
  }

  /** A standard JSON-RPC 2.0 error reply, with no `result` member and an
      error object without `data`, decodes to the error it carries. */
  lemma StandardErrorReplyDecodes(id: string, code: i32, message: string)
    ensures DecodeResponse(JObject([("jsonrpc", JString("2.0")),
                                    ("error", JObject([("code", JNumber(Int(code as int))), ("message", JString(message))])),
                                    ("id", JString(id))]))
      == Some(Response("2.0", None, Some(RpcError(code, message, None)), id))
  {
    var em := [("code", JNumber(Int(code as int))), ("message", JString(message))];
    UniqueAt(em, 0, "code");
    UniqueAt(em, 1, "message");
    CountZero(em, "data");
    var ms := [("jsonrpc", JString("2.0")), ("error", JObject(em)), ("id", JString(id))];
    UniqueAt(ms, 0, "jsonrpc");
    UniqueAt(ms, 1, "error");
    UniqueAt(ms, 2, "id");
    CountZero(ms, "result");
  }

  /** Members the envelope does not name never change the decoding: one
      with any other key, wherever it sits among the members, leaves the
      result as it was. */
  lemma UnknownMembersIgnored(ms1: seq<(string, Value)>, ms2: seq<(string, Value)>, key: string, x: Value)
    requires key != "jsonrpc" && key != "result" && key != "error" && key != "id"
    ensures DecodeResponse(JObject(ms1 + [(key, x)] + ms2)) == DecodeResponse(JObject(ms1 + ms2))
  {
    var with := ms1 + [(key, x)] + ms2;
    InsertedMemberKeepsField(ms1, ms2, key, x, "jsonrpc");
    InsertedMemberKeepsField(ms1, ms2, key, x, "result");
    InsertedMemberKeepsField(ms1, ms2, key, x, "error");
    InsertedMemberKeepsField(ms1, ms2, key, x, "id");
    assert ResponseFromMembers(with) == ResponseFromMembers(ms1 + ms2);
  }

  /** A member under one key never changes how another key is read,
      wherever it is inserted. */
  lemma {:induction false} InsertedMemberKeepsField(ms1: seq<(string, Value)>, ms2: seq<(string, Value)>,
                                                   key: string, x: Value, k: string)
    requires k != key
    ensures Count(ms1 + [(key, x)] + ms2, k) == Count(ms1 + ms2, k)
    ensures Lookup(ms1 + [(key, x)] + ms2, k) == Lookup(ms1 + ms2, k)
    ensures FieldOf(ms1 + [(key, x)] + ms2, k) == FieldOf(ms1 + ms2, k)
    decreases |ms1|
  {
    var with := ms1 + [(key, x)] + ms2;
    if |ms1| == 0 {
      assert with == [(key, x)] + ms2 && ms1 + ms2 == ms2;
      assert with[1..] == ms2;
    } else {
      assert with[0] == (ms1 + ms2)[0];
      assert with[1..] == ms1[1..] + [(key, x)] + ms2;
      assert (ms1 + ms2)[1..] == ms1[1..] + ms2;
      InsertedMemberKeepsField(ms1[1..], ms2, key, x, k);
    }
  }

  /** The value of `jsonrpc` is never compared with "2.0": any string is
      accepted, and is the only thing that changes in the result. */
  lemma VersionNotChecked(r: Response, other: string)
    requires NoNullPayload(r)
    ensures DecodeResponse(EncodeResponse(r.(jsonrpc := other))) == Some(r.(jsonrpc := other))
  {
    ResponseRoundTrip(r.(jsonrpc := other));
  }

  /** A malformed `error` member makes the whole response undecodable,
      whatever the other members are. */
  lemma MalformedErrorRejectsResponse(ms: seq<(string, Value)>, x: Value)
    requires Lookup(ms, "error") == Some(x) && x != JNull && DecodeError(x).None?
    ensures DecodeResponse(JObject(ms)).None?
  {
  }

  /** In particular, a well-formed `id` and `result` do not save it. */
  lemma MalformedErrorBesideResult(jsonrpc: string, result: Value, error: Value, id: string)
    requires error != JNull && DecodeError(error).None?
    ensures DecodeResponse(JObject([("jsonrpc", JString(jsonrpc)), ("result", result),
                                    ("error", error), ("id", JString(id))])).None?
  {
    var ms := [("jsonrpc", JString(jsonrpc)), ("result", result), ("error", error), ("id", JString(id))];
    LookupAt(ms, 2, "error");
    MalformedErrorRejectsResponse(ms, error);
  }

  /** Naming `id` twice is a decode error, although `Value::get` would pick
      the second one. */
  lemma RepeatedIdRejectsResponse(jsonrpc: string, a: string, b: string)
    ensures DecodeResponse(JObject([("jsonrpc", JString(jsonrpc)), ("id", JString(a)), ("id", JString(b))])).None?
    ensures Get(JObject([("jsonrpc", JString(jsonrpc)), ("id", JString(a)), ("id", JString(b))]), "id") == Some(JString(b))
  {
    var ms := [("jsonrpc", JString(jsonrpc)), ("id", JString(a)), ("id", JString(b))];
    UniqueAt(ms, 0, "jsonrpc");
    RepeatedAt(ms, 1, 2, "id");
    LookupAt(ms, 2, "id");
  }
}

=== FILE: json.dfy ===
/**
  JSON values as serde_json represents them, and the texts that carry them
  over the socket. Parsing and printing are not modelled character by
  character: a text that parses is identified with the value it parses to.
 */
module Json {

  /** The usual optional value; failure-compatible so decoders can use `:-`. */
  datatype Option<+T> = None | Some(value: T) {
    predicate IsFailure() { None? }

    function PropagateFailure<U>(): Option<U>
      requires None?
    {
      None
    }

    function Extract(): T
      requires Some?
    {
      value
    }
  }

  /** A JSON number. serde_json keeps integer literals that fit in 64 bits as
      integers and every other literal as a float; a float is carried by its
      literal text, since no arithmetic is done on it here. */
  datatype Number = Int(i: int) | Float(literal: string)

  /** A JSON value. Object members keep their order and any repeated keys,
      because struct decoding rejects a repeated field while `Value::get`
      silently takes the last one. */
  datatype Value =
    | JNull
    | JBool(b: bool)
    | JNumber(n: Number)
    | JString(s: string)
    | JArray(items: seq<Value>)
    | JObject(members: seq<(string, Value)>)

  /** The text of a frame or of a one-shot payload: either the printing of a
      JSON value (identified up to insignificant whitespace) or a text that
      serde_json refuses to parse. */
  datatype Text = Printed(value: Value) | Unparsable(chars: string)

  /** The empty text. It is not JSON, and no printed value is empty. */
  const Empty: Text := Unparsable("")

  function Parse(t: Text): Option<Value>
  {
    match t
    case Printed(v) => Some(v)
    case Unparsable(_) => None
  }

  /** Number of members of `ms` named `key`. */
  function Count(ms: seq<(string, Value)>, key: string): (n: nat)
    ensures n <= |ms|
  {
    if |ms| == 0 then 0
    else (if ms[0].0 == key then 1 else 0) + Count(ms[1..], key)
  }

  /** No member is counted exactly when no member has the key. */
  lemma {:induction false} CountZero(ms: seq<(string, Value)>, key: string)
    ensures Count(ms, key) == 0 <==> forall i :: 0 <= i < |ms| ==> ms[i].0 != key
  {
    if |ms| > 0 {
      CountZero(ms[1..], key);
      assert forall i :: 0 < i < |ms| ==> ms[i] == ms[1..][i - 1];
    }
  }

  /** The value of member `key` as serde_json's map keeps it: when the key
      is repeated, the last occurrence wins. */
  function Lookup(ms: seq<(string, Value)>, key: string): (r: Option<Value>)
    ensures r.None? <==> Count(ms, key) == 0
  {
    if |ms| == 0 then None
    else
      var rest := Lookup(ms[1..], key);
      if rest.Some? then rest
      else if ms[0].0 == key then Some(ms[0].1)
      else None
  }

  /** `Lookup` finds nothing exactly when no member has the key, and
      otherwise the value of the last member that has it. */
  lemma {:induction false} LookupIsLast(ms: seq<(string, Value)>, key: string)
    ensures Lookup(ms, key).None? <==> forall i :: 0 <= i < |ms| ==> ms[i].0 != key
    ensures Lookup(ms, key).Some? ==>
      exists i :: 0 <= i < |ms| && ms[i] == (key, Lookup(ms, key).value)
        && forall j :: i < j < |ms| ==> ms[j].0 != key
  {
    CountZero(ms, key);
    if |ms| > 0 {
      var rest := Lookup(ms[1..], key);
      LookupIsLast(ms[1..], key);
      assert forall j :: 0 < j < |ms| ==> ms[j] == ms[1..][j - 1];
      if rest.Some? {
        var i :| 0 <= i < |ms[1..]| && ms[1..][i] == (key, rest.value)
          && forall j :: i < j < |ms[1..]| ==> ms[1..][j].0 != key;
        assert ms[i + 1] == (key, rest.value);
      } else if ms[0].0 == key {
        assert ms[0] == (key, Lookup(ms, key).value);
      }
    }
  }

  /** A member followed by no other member with its key is the one found. */
  lemma {:induction false} LookupAt(ms: seq<(string, Value)>, i: nat, key: string)
    requires i < |ms| && ms[i].0 == key
    requires forall j :: i < j < |ms| ==> ms[j].0 != key
    ensures Lookup(ms, key) == Some(ms[i].1)
    decreases i
  {
    assert forall j :: 0 <= j < |ms[1..]| ==> ms[1..][j] == ms[j + 1];
    if i == 0 {
      CountZero(ms[1..], key);
    } else {
      LookupAt(ms[1..], i - 1, key);
    }
  }

  /** `Value::get(key)`: a member of an object, nothing for any other value. */
  function Get(v: Value, key: string): (r: Option<Value>)
    ensures r.Some? <==> v.JObject? && Count(v.members, key) > 0
    // the last member with the key
    ensures r.Some? ==>
      exists i :: 0 <= i < |v.members| && v.members[i] == (key, r.value)
        && forall j :: i < j < |v.members| ==> v.members[j].0 != key
  {
    match v
    case JObject(ms) => LookupIsLast(ms, key); Lookup(ms, key)
    case _ => None
  }

  /** `Value::as_str`. */
  function AsStr(v: Value): Option<string>
  {
    match v
    case JString(s) => Some(s)
    case _ => None
  }

  /** `Value::as_u64`: an integer in the unsigned 64-bit range, nothing for a
      negative integer, a float or a non-number. */
  function AsU64(v: Value): (r: Option<nat>)
    ensures r.Some? ==> r.value < 0x1_0000_0000_0000_0000 && v == JNumber(Int(r.value))
    ensures v.JNumber? && v.n.Int? && 0 <= v.n.i < 0x1_0000_0000_0000_0000 ==> r.Some?
  {
    match v
    case JNumber(Int(i)) => if 0 <= i < 0x1_0000_0000_0000_0000 then Some(i) else None
    case _ => None
  }
}

=== FILE: legacy.dfy ===
/**
  The older, self-contained manager (`websocket_manager.rs`). It shares the
  envelope types, the per-frame demultiplexer and the nested id salvage with
  the newer pair, but its connection loop never drains the table when an
  epoch ends, its callers have no timer, and a refused hand-off leaves the
  caller's entry in the table.
 */
module Legacy {
  import opened Json
  import opened Envelope
  import opened Pending
  import opened Demux
  import opened Reply
  import opened Supervisor
  import Manager

  /** Only frames take entries out of the table of the older loop in a run
      where no caller withdraws (and its callers never do): reconnecting
      keeps every entry, so a caller whose reply was lost with its
      connection stays pending for good. */
  lemma {:induction false} EntriesSurviveReconnect(s: State, es: seq<Event>)
    requires forall i :: 0 <= i < |es| ==> !es[i].Receive? && !es[i].Withdraw?
    ensures s.pending <= Final(Lingering, s, es).pending
    ensures forall i :: 0 <= i < |es| ==> Log(Lingering, s, es)[i] == map[]
    decreases |es|
  {
    if |es| > 0 {
      var st := Step(Lingering, s, es[0]);
      EntriesSurviveReconnect(st.state, es[1..]);
      forall i | 0 <= i < |es| ensures Log(Lingering, s, es)[i] == map[] {
        if i > 0 {
          assert Log(Lingering, s, es)[i] == Log(Lingering, st.state, es[1..])[i - 1];
        }
      }
    }
  }

  /** The classification of a payload: as in the newer managers, but with
      no check for the empty sentinel, which this loop never sends. */
  function Interpret(t: Text, id: Id): (r: CallResult)
    ensures t != Empty ==> r == Reply.Interpret(t, id)
    // every text that does not decode, the empty one included, is a decode error
    ensures r == Err(Malformed) <==> Decoded(t).None?
    ensures r != Err(ConnectionLost)
  {
    if t == Empty then Err(Malformed) else Reply.Interpret(t, id)
  }

  /** The call's result once its receiver gets `d`. */
  function Outcome(d: Delivery, id: Id): (r: CallResult)
    ensures r == Err(ReceiveFailed) <==> d.Dropped?
    ensures d.Payload? && d.text != Empty ==> r == Reply.Outcome(d, id)
  {
    match d
    case Payload(t) => Interpret(t, id)
    case Dropped => Err(ReceiveFailed)
  }

  /** One call: the state when the run ends, the request the channel took,
      and the caller's result, `None` while it is still waiting. */
  datatype Run = Run(state: State, sent: Option<Value>, result: Option<CallResult>)

  /** `send_request` with the fresh id `id`. */
  function SendRequest(s: State, id: Id, methodName: string, params: Value, handoff: Manager.Handoff,
                       world: seq<Event>): (c: Run)
    requires Valid(s) && id !in s.issued
    ensures id in c.state.issued && Valid(c.state)
    // a refused hand-off reports the bare channel error and leaves the entry behind
    ensures handoff.Refused? ==>
      c.result == Some(Err(Unsent(handoff.detail))) && c.sent.None?
      && c.state.pending == s.pending + {id}
    // once the request is sent, a caller still waiting keeps its entry and a
    // caller with a result has none
    ensures handoff.Accepted? ==> (c.result.None? <==> id in c.state.pending)
    // a payload always decodes and echoes this id
    ensures c.result != Some(Err(MismatchedId)) && c.result != Some(Err(Malformed))
    ensures c.sent.Some? <==> handoff.Accepted?
    ensures c.sent.Some? ==> c.sent.value == EncodeRequest(Manager.BuildRequest(methodName, params, id))
    // once the request is sent, the caller is still waiting exactly when no
    // event of the world resolves its id, and then the world has run to its end
    ensures handoff.Accepted? ==>
      var s1 := Step(Lingering, s, Register(id)).state;
      (c.result.None? <==> Untouched(Lingering, s1, world, id))
      && (c.result.None? ==> c.state == Final(Lingering, s1, world))
    // otherwise the result is made of what the first event resolving the id delivered
    ensures handoff.Accepted? ==>
      var s1 := Step(Lingering, s, Register(id)).state;
      forall i :: FirstResolves(Lingering, s1, world, id, i) ==>
        c.result == Some(Outcome(Log(Lingering, s1, world)[i][id], id))
  {
    var s1 := Step(Lingering, s, Register(id)).state;
    var request := EncodeRequest(Manager.BuildRequest(methodName, params, id));
    match handoff
    case Refused(detail) => Run(s1, None, Some(Err(Unsent(detail))))
    case Accepted =>
      AwaitIsFirstResolution(Lingering, s1, id, world);
      // there is no timer: an unresolved caller is still waiting
      var (s2, wake) := Await(Lingering, s1, id, world);
      match wake
      case Unresolved => Run(s2, Some(request), None)
      case Woken(t) => Run(s2, Some(request), Some(Interpret(t, id)))
      case SenderDropped => Run(s2, Some(request), Some(Err(ReceiveFailed)))
  }

  /** A connection that ends while the caller waits does not reach it: the
      caller is still waiting after the reconnect, with its entry in place. */
  lemma CallerOutlivesConnection(s: State, id: Id, methodName: string, params: Value)
    requires Valid(s) && id !in s.issued && s.link == Up
    ensures var c := SendRequest(s, id, methodName, params, Manager.Accepted, [Closed, ConnectOk]);
      c.result.None? && id in c.state.pending && c.state.link == Up
  {
  }

  /** A reply that arrives on the next connection still reaches the caller. */
  lemma ReplyAfterReconnect(s: State, id: Id, methodName: string, params: Value, v: Value)
    requires Valid(s) && id !in s.issued && s.link == Up && v != JNull
    ensures var reply := Printed(EncodeResponse(Response(Version, Some(v), None, id)));
      SendRequest(s, id, methodName, params, Manager.Accepted,
        [Closed, ConnectOk, Receive(TextFrame(reply))]).result == Some(Ok(v))
  {
    var resp := Response(Version, Some(v), None, id);
    var reply := Printed(EncodeResponse(resp));
    DecodeEncodedResponse(resp);
    Reply.InterpretReply(resp, id);
    var s1 := Step(Lingering, s, Register(id)).state;
    AwaitAcrossReconnect(s1, id, reply);
  }

  /** A closed connection and a successful reconnect leave a waiting entry
      in place, so the first matching frame afterwards resolves it. */
  lemma AwaitAcrossReconnect(s1: State, id: Id, reply: Text)
    requires id in s1.pending && id in s1.issued && s1.link == Up && Echoes(reply, id)
    ensures Await(Lingering, s1, id, [Closed, ConnectOk, Receive(TextFrame(reply))]).1 == Woken(reply)
  {
    var s2 := Step(Lingering, s1, Closed).state;
    var s3 := Step(Lingering, s2, ConnectOk).state;
    assert s3 == s1;
    MatchedFrameResolves(s3.pending, reply, id);
    var frame := [Receive(TextFrame(reply))];
    assert Await(Lingering, s3, id, frame).1 == Woken(reply);
    assert [Closed, ConnectOk, Receive(TextFrame(reply))][1..] == [ConnectOk] + frame;
    assert ([ConnectOk] + frame)[1..] == frame;
  }
}

=== FILE: manager.dfy ===
/**
  The call façade of the channel-based manager (`manager.rs`): register the
  caller's entry first, hand the serialized request to the outbound channel
  that the connection loop drains, and wait at most 10 seconds.
 */
module Manager {
  import opened Json
  import opened Envelope
  import opened Pending
  import opened Demux
  import opened Supervisor
  import opened Reply

  /** Whether the transport (or the channel in front of it) took the request. */
  datatype Handoff = Accepted | Refused(detail: string)

  /** The outcome of one call: the state when it returns, the request the
      transport took (if it took one), and the caller's result. */
  datatype CallRun = CallRun(state: State, sent: Option<Value>, result: CallResult)

  /** The request envelope: on the wire it names version "2.0", the method
      and the fresh id, and carries `params` exactly as given. */
  function BuildRequest(methodName: string, params: Value, id: Id): (r: Request)
    ensures var v := EncodeRequest(r);
      && Get(v, "jsonrpc") == Some(JString("2.0"))
      && Get(v, "method") == Some(JString(methodName))
      && Get(v, "params") == Some(params)
      && Get(v, "id") == Some(JString(id))
  {
    Request(Version, methodName, params, id)
  }

  /** A call once its request is built: register the request's id first,
      hand the serialized request over, and wait for the reply until the
      timer fires. The live client shares this part with the manager. */
  function Exchange(s: State, request: Request, handoff: Handoff, world: seq<Event>): (c: CallRun)
    requires Valid(s) && request.id !in s.issued
    ensures request.id in c.state.issued
    // the entry never outlives the call
    ensures request.id !in c.state.pending
    // composed with the connection loop, a payload always decodes and echoes this id
    ensures c.result != Err(MismatchedId) && c.result != Err(Malformed)
    // a refused hand-off removes the entry again and changes nothing else
    ensures handoff.Refused? ==>
      c.result == Err(SendFailed(handoff.detail)) && c.sent.None?
      && c.state.pending == s.pending && c.state.link == s.link
    ensures c.sent.Some? <==> handoff.Accepted?
    // what goes on the wire is the encoded request
    ensures c.sent.Some? ==> c.sent.value == EncodeRequest(request)
    // once the request is sent, the timer fires exactly when no event of the
    // world resolves its id, and then the world has run to its end
    ensures handoff.Accepted? ==>
      var s1 := Step(Draining, s, Register(request.id)).state;
      (c.result == Err(TimedOut) <==> Untouched(Draining, s1, world, request.id))
      && (c.result == Err(TimedOut) ==> c.state.pending == Final(Draining, s1, world).pending - {request.id})
    // otherwise the result is made of what the first event resolving the id delivered
    ensures handoff.Accepted? ==>
      var s1 := Step(Draining, s, Register(request.id)).state;
      forall i :: FirstResolves(Draining, s1, world, request.id, i) ==>
        c.result == Outcome(Log(Draining, s1, world)[i][request.id], request.id)
  {
    var id := request.id;
    var s1 := Step(Draining, s, Register(id)).state;
    match handoff
    case Refused(detail) =>
      CallRun(Step(Draining, s1, Withdraw(id)).state, None, Err(SendFailed(detail)))
    case Accepted =>
      AwaitIsFirstResolution(Draining, s1, id, world);
      var (s2, wake) := Await(Draining, s1, id, world);
      match wake
      case Woken(t) => CallRun(s2, Some(EncodeRequest(request)), Interpret(t, id))
      case SenderDropped => CallRun(s2, Some(EncodeRequest(request)), Err(ReceiveFailed))
      // the timer fires first
      case Unresolved =>
        CallRun(Step(Draining, s2, Withdraw(id)).state, Some(EncodeRequest(request)), Err(TimedOut))
  }

  /** `send_request` with the fresh id `id`, a channel hand-off outcome, and
      the events `world` that happen before the caller's timer fires. */
  function SendRequest(s: State, id: Id, methodName: string, params: Value, handoff: Handoff,
                       world: seq<Event>): (c: CallRun)
    requires Valid(s) && id !in s.issued
    ensures id in c.state.issued
    // the entry never outlives the call
    ensures id !in c.state.pending
    // composed with the connection loop, a payload always decodes and echoes this id
    ensures c.result != Err(MismatchedId) && c.result != Err(Malformed)
    // a refused hand-off removes the entry again and changes nothing else
    ensures handoff.Refused? ==>
      c.result == Err(SendFailed(handoff.detail)) && c.sent.None?
      && c.state.pending == s.pending && c.state.link == s.link
    ensures c.sent.Some? <==> handoff.Accepted?
    // what goes on the wire is the encoded envelope of this call
    ensures c.sent.Some? ==> c.sent.value == EncodeRequest(BuildRequest(methodName, params, id))
    // once the request is sent, the timer fires exactly when no event of the
    // world resolves the id, and then the world has run to its end
    ensures handoff.Accepted? ==>
      var s1 := Step(Draining, s, Register(id)).state;
      (c.result == Err(TimedOut) <==> Untouched(Draining, s1, world, id))
      && (c.result == Err(TimedOut) ==> c.state.pending == Final(Draining, s1, world).pending - {id})
    // otherwise the result is made of what the first event resolving the id delivered
    ensures handoff.Accepted? ==>
      var s1 := Step(Draining, s, Register(id)).state;
      forall i :: FirstResolves(Draining, s1, world, id, i) ==>
        c.result == Outcome(Log(Draining, s1, world)[i][id], id)
  {
    Exchange(s, BuildRequest(methodName, params, id), handoff, world)
  }

  /** The manager never reshapes `params`: whatever the method, the request
      on the wire carries them unchanged, next to the fresh id. */
  lemma ForwardsParams(s: State, id: Id, methodName: string, params: Value, world: seq<Event>)
    requires Valid(s) && id !in s.issued
    ensures var c := SendRequest(s, id, methodName, params, Accepted, world);
      c.sent.Some? && DecodeRequest(c.sent.value) == Some(Request(Version, methodName, params, id))
  {
    RequestRoundTrip(BuildRequest(methodName, params, id));
  }

  /** A connection epoch that ends while the caller waits reaches it as
      "connection lost": whatever came before, as long as nothing before
      the end of the epoch resolved the call. */
  lemma AbandonedCallerSeesConnectionLost(s: State, id: Id, methodName: string, params: Value,
                                          world: seq<Event>, i: nat)
    requires Valid(s) && id !in s.issued
    requires i < |world| && forall j :: 0 <= j < i ==> Spares(world[j], id)
    requires EndsEpoch(Final(Draining, Step(Draining, s, Register(id)).state, world[..i]), world[i])
    ensures SendRequest(s, id, methodName, params, Accepted, world).result == Err(ConnectionLost)
  {
    var s1 := Step(Draining, s, Register(id)).state;
    ReachedBy(Draining, s1, world, id, i);
    assert Log(Draining, s1, world)[i][id] == Abandoned;
    assert FirstResolves(Draining, s1, world, id, i);
  }

  /** A reply that echoes the id and carries a result gives that exact
      result to the caller, however many other calls are pending and
      whatever came before it that did not concern the call. */
  lemma MatchingReplyReturnsResult(s: State, id: Id, methodName: string, params: Value, v: Value,
                                   world: seq<Event>, i: nat)
    requires Valid(s) && id !in s.issued && v != JNull
    requires i < |world| && forall j :: 0 <= j < i ==> Spares(world[j], id)
    requires world[i] == Receive(TextFrame(Printed(EncodeResponse(Response(Version, Some(v), None, id)))))
    requires Final(Draining, Step(Draining, s, Register(id)).state, world[..i]).link == Up
    ensures SendRequest(s, id, methodName, params, Accepted, world).result == Ok(v)
  {
    var resp := Response(Version, Some(v), None, id);
    var reply := Printed(EncodeResponse(resp));
    InterpretReply(resp, id);
    EchoingReplyIsInterpreted(s, BuildRequest(methodName, params, id), reply, world, i);
  }

  /** A reply that decodes and echoes the request's id, reaching a live
      connection before anything else resolved the call, is what the
      caller's result is made of. */
  lemma EchoingReplyIsInterpreted(s: State, request: Request, t: Text, world: seq<Event>, i: nat)
    requires Valid(s) && request.id !in s.issued && Echoes(t, request.id)
    requires i < |world| && forall j :: 0 <= j < i ==> Spares(world[j], request.id)
    requires world[i] == Receive(TextFrame(t))
    requires Final(Draining, Step(Draining, s, Register(request.id)).state, world[..i]).link == Up
    ensures Exchange(s, request, Accepted, world).result == Interpret(t, request.id)
  {
    var id := request.id;
    var s1 := Step(Draining, s, Register(id)).state;
    ReachedBy(Draining, s1, world, id, i);
    var f := Final(Draining, s1, world[..i]);
    MatchedFrameResolves(f.pending, t, id);
    assert Log(Draining, s1, world)[i] == map[id := Payload(t)];
    assert FirstResolves(Draining, s1, world, id, i);
  }

  /** When nothing in the world concerns the call, the timer fires: the call
      times out and its entry is gone, while every other entry is where the
      world left it. */
  lemma SilenceTimesOut(s: State, id: Id, methodName: string, params: Value, world: seq<Event>)
    requires Valid(s) && id !in s.issued
    requires forall j :: 0 <= j < |world| ==> Spares(world[j], id)
    ensures var c := SendRequest(s, id, methodName, params, Accepted, world);
      c.result == Err(TimedOut)
      && c.state.pending == Final(Draining, Step(Draining, s, Register(id)).state, world).pending - {id}
  {
    SparedThroughout(Draining, Step(Draining, s, Register(id)).state, world, id);
  }
}

=== FILE: pending.dfy ===
/**
  The pending-call table: the ids of the calls whose one-shot sender is still
  waiting in the map. A sender carries nothing but the channel back to the
  caller that generated its id, so the table is the set of those ids.

  Taking an entry out of the map is the only way a caller is ever resolved:
  either the sender is used once (`Payload`) or it is dropped (`Dropped`,
  which the caller's receiver sees as an error).
 */
module Pending {
  import opened Json

  type Id = string

  /** What the receiver of a call observes once its sender leaves the table. */
  datatype Delivery = Payload(text: Text) | Dropped

  /** The sentinel every caller receives when the connection epoch ends. */
  const Abandoned: Delivery := Payload(Empty)

  /** Every pending caller resolved with the sentinel, as the epoch-end drain
      does. */
  function Drained(pending: set<Id>): (out: map<Id, Delivery>)
    ensures out.Keys == pending
    ensures forall k :: k in out ==> out[k] == Abandoned
  {
    map k | k in pending :: Abandoned
  }

  /** The drain loop at the end of a connection epoch: take each sender out
      of the map in some order and send it the empty text. */
  method Drain(pending: set<Id>) returns (out: map<Id, Delivery>, left: set<Id>)
    ensures left == {}
    ensures out.Keys == pending
    ensures forall k :: k in out ==> out[k] == Abandoned
    ensures out == Drained(pending)
  {
    out := map[];
    left := pending;
    while left != {}
      invariant left <= pending
      invariant out.Keys == pending - left
      invariant forall k :: k in out ==> out[k] == Abandoned
      decreases left
    {
      var k :| k in left;
      out := out[k := Abandoned];
      left := left - {k};
    }
  }
}

=== FILE: reply.dfy ===
/**
  How a caller turns what its receiver got into the call's result. The same
  case analysis appears in `manager.rs` and in `client.rs`: the empty
  sentinel first, then decoding, the id check, the error member, the result
  member, and finally the case with neither.
 */
module Reply {
  import opened Json
  import opened Envelope
  import opened Pending

  datatype CallError =
    | NotConnected                 // no live send half
    | SendFailed(detail: string)   // the transport or channel refused the request
    | Unsent(detail: string)       // the same, reported with the bare channel error
    | TimedOut
    | ConnectionLost               // the abandonment sentinel arrived
    | Malformed                    // the payload did not decode; serde's message text is not modelled
    | MismatchedId
    | Remote(message: string)      // the remote's error message
    | NoResultOrError
    | ReceiveFailed                // the sender was dropped without a payload

  datatype CallResult = Ok(value: Value) | Err(error: CallError)

  /** The message text the caller receives for each error. */
  function Describe(e: CallError): (d: string)
    requires !e.Malformed?
    // the remote's message and the bare channel error reach the caller verbatim
    ensures e.Remote? ==> d == e.message
    ensures e.Unsent? ==> d == e.detail
    // a refused hand-off keeps the channel's error text at the end of the message
    ensures e.SendFailed? ==> |d| > |e.detail| && d[|d| - |e.detail|..] == e.detail
    ensures !e.Remote? && !e.Unsent? ==> |d| > 0
  {
    match e
    case NotConnected => "WebSocket connection not established"
    case SendFailed(detail) => "Failed to send request: " + detail
    case Unsent(detail) => detail
    case TimedOut => "Request timed out"
    case ConnectionLost => "Connection lost before receiving response"
    case MismatchedId => "Mismatched response ID"
    case Remote(message) => message
    case NoResultOrError => "No result or error in response"
    case ReceiveFailed => "Failed to receive response"
  }

  /** Apart from the texts that come from elsewhere (the remote's message,
      the bare channel error), no two failures read the same. */
  lemma DescribeDistinguishes(e1: CallError, e2: CallError)
    requires !e1.Malformed? && !e1.Remote? && !e1.Unsent?
    requires !e2.Malformed? && !e2.Remote? && !e2.Unsent?
    ensures Describe(e1) == Describe(e2) <==> e1 == e2
  {
    if e1.SendFailed? && e2.SendFailed? && Describe(e1) == Describe(e2) {
      assert e1.detail == Describe(e1)[24..] == Describe(e2)[24..] == e2.detail;
    }
    if e1.SendFailed? && !e2.SendFailed? {
      SendFailedStandsOut(e1.detail, e2);
    }
    if e2.SendFailed? && !e1.SendFailed? {
      SendFailedStandsOut(e2.detail, e1);
    }
  }

  /** A send failure never reads like one of the fixed messages. */
  lemma SendFailedStandsOut(detail: string, e: CallError)
    requires !e.Malformed? && !e.Remote? && !e.Unsent? && !e.SendFailed?
    ensures Describe(SendFailed(detail)) != Describe(e)
  {
    var d := Describe(SendFailed(detail));
    assert d[0] == 'F' && d[10] == 's';
  }

  /** `serde_json::from_str::<JSONRPCResponse>` on a payload. */
  function Decoded(t: Text): Option<Response>
  {
    match Parse(t)
    case Some(v) => DecodeResponse(v)
    case None => None
  }

  /** The classification of a payload received for the call `id`. */
  function Interpret(t: Text, id: Id): (r: CallResult)
    // the sentinel is recognised before any decoding
    ensures t == Empty <==> r == Err(ConnectionLost)
    ensures r == Err(Malformed) <==> t != Empty && Decoded(t).None?
    ensures r == Err(MismatchedId) <==> Decoded(t).Some? && Decoded(t).value.id != id
    // a value is returned only from a reply to this call that carries no error
    ensures r.Ok? ==>
      Echoes(t, id) && Decoded(t).value.error.None? && Decoded(t).value.result == Some(r.value)
    ensures r.Err? && r.error.Remote? ==>
      Echoes(t, id) && Decoded(t).value.error.Some?
      && Decoded(t).value.error.value.message == r.error.message
    // a reply to this call: its error, else its result, else a protocol violation
    ensures Echoes(t, id) ==>
      var resp := Decoded(t).value;
      r == if resp.error.Some? then Err(Remote(resp.error.value.message))
           else if resp.result.Some? then Ok(resp.result.value)
           else Err(NoResultOrError)
  {
    if t == Empty then Err(ConnectionLost)
    else
      match Decoded(t)
      case None => Err(Malformed)
      case Some(resp) =>
        if resp.id != id then Err(MismatchedId)
        else if resp.error.Some? then Err(Remote(resp.error.value.message))
        else if resp.result.Some? then Ok(resp.result.value)
        else Err(NoResultOrError)
  }

  /** The call's result once its receiver gets `d`: a payload is classified,
      and a sender dropped without one is a receive failure. */
  function Outcome(d: Delivery, id: Id): (r: CallResult)
    ensures r == Err(ReceiveFailed) <==> d.Dropped?
    ensures r == Err(ConnectionLost) <==> d == Abandoned
  {
    match d
    case Payload(t) => Interpret(t, id)
    case Dropped => Err(ReceiveFailed)
  }

  /** What the caller gets when the remote replies with the envelope `resp`:
      a mismatched id first; then the remote's error, even alongside a
      result; then the result; a `null` or missing result with no error is
      a protocol violation. */
  lemma InterpretReply(resp: Response, id: Id)
    ensures Interpret(Printed(EncodeResponse(resp)), id) ==
      if resp.id != id then Err(MismatchedId)
      else if resp.error.Some? then Err(Remote(resp.error.value.message))
      else if resp.result.Some? && resp.result.value != JNull then Ok(resp.result.value)
      else Err(NoResultOrError)
  {
    DecodeEncodedResponse(resp);
  }

  /** A reply carrying both an error and a result is an error. */
  lemma ErrorWinsOverResult(resp: Response, id: Id)
    requires resp.id == id && resp.error.Some? && resp.result.Some?
    ensures Interpret(Printed(EncodeResponse(resp)), id) == Err(Remote(resp.error.value.message))
  {
    InterpretReply(resp, id);
  }
}

=== FILE: salvage.dfy ===
/**
  The best-effort recovery of a correlation id from a frame that did not
  decode as a response envelope (`extract_id_from_response`): parse the text
  as a free-form JSON value and read its top-level `id` member, if that is a
  string.
 */
module Salvage {
  import opened Json
  import opened Envelope

  function ExtractId(t: Text): (r: Option<string>)
    ensures r.Some? <==>
      t.Printed? && t.value.JObject? && Lookup(t.value.members, "id").Some?
        && Lookup(t.value.members, "id").value.JString?
    ensures r.Some? ==> Get(t.value, "id") == Some(JString(r.value))
  {
    match Parse(t)
    case None => None
    case Some(v) =>
      match Get(v, "id")
      case Some(JString(s)) => Some(s)
      case _ => None
  }

  /** For an object that also decodes as a response, the salvaged id is the
      decoded id: the two readings never disagree. (A response given as an
      array decodes, but yields no salvaged id.) */
  lemma SalvageAgreesWithDecode(ms: seq<(string, Value)>)
    requires DecodeResponse(JObject(ms)).Some?
    ensures ExtractId(Printed(JObject(ms))) == Some(DecodeResponse(JObject(ms)).value.id)
  {
  }

  /** Only the top-level `id` member is consulted: a member under any other
      key, at any position and including a nested object with its own `id`,
      is irrelevant. */
  lemma OnlyTopLevelId(ms1: seq<(string, Value)>, ms2: seq<(string, Value)>, key: string, x: Value)
    requires key != "id"
    ensures ExtractId(Printed(JObject(ms1 + [(key, x)] + ms2))) == ExtractId(Printed(JObject(ms1 + ms2)))
  {
    InsertedMemberKeepsField(ms1, ms2, key, x, "id");
  }

  /** A repeated top-level `id` yields the last one, the way serde_json's map
      keeps it, even though such a frame never decodes as a response. */
  lemma LastIdWins(ms: seq<(string, Value)>, a: string, b: string)
    ensures ExtractId(Printed(JObject(ms + [("id", JString(a)), ("id", JString(b))]))) == Some(b)
  {
    var all := ms + [("id", JString(a)), ("id", JString(b))];
    LookupAt(all, |all| - 1, "id");
  }
}

=== FILE: supervisor.dfy ===
/**
  The connection supervisor of `connection.rs` together with the callers'
  operations on the shared table, as one sequence of atomic events.

  The supervisor alternates between `Down` (connecting, or waiting the fixed
  5 seconds before the next attempt) and `Up` (one connection epoch, a loop
  of `select!` over the outbound channel and the inbound stream). The loop
  has no exit: a failed attempt and a finished epoch both lead back to
  `Down`, from which the next attempt is made.

  Inside an epoch each `select!` ends in one of three ways:
  - an outbound message is written (`Write(ok)`); a failed write ends the epoch;
  - an inbound frame arrives (`Receive`) and goes to the demultiplexer;
  - both branches are disabled (`Closed`): the `else` arm ends the epoch.
  A stream that ends or errors while the outbound channel is still open
  only disables the inbound branch for that `select!` (`InboundEnded`): the
  loop goes on serving the outbound channel, and the epoch ends at the next
  failed write or when the channel closes as well.

  The older loop of `websocket_manager.rs` is the same machine except at the
  end of an epoch: it goes back to `Down` without draining the table
  (`Lingering`, as opposed to `Draining`).
 */
module Supervisor {
  import opened Json
  import opened Envelope
  import opened Pending
  import opened Demux

  datatype Link = Down | Up

  /** What the loop does with the table when an epoch ends. */
  datatype Loop =
    | Draining    // `connection.rs`: every pending caller gets the sentinel
    | Lingering   // `websocket_manager.rs`: the entries stay, unresolved

  /** The shared table, the supervisor's phase, and every id the caller side
      has generated so far (ids are never generated twice). */
  datatype State = State(pending: set<Id>, link: Link, issued: set<Id>)

  const Initial: State := State({}, Down, {})

  datatype Event =
    | Register(id: Id)        // a caller generates `id` and inserts its sender
    | Withdraw(id: Id)        // a caller removes its own entry (send failure, timeout)
    | ConnectOk
    | ConnectFail
    | Write(ok: bool)
    | Receive(frame: Frame)
    | InboundEnded
    | Closed

  datatype Stepped = Stepped(state: State, out: map<Id, Delivery>)

  /** Every pending id was generated by a caller. */
  predicate Valid(s: State)
  {
    s.pending <= s.issued
  }

  /** The events that end a connection epoch. */
  predicate EndsEpoch(s: State, e: Event)
  {
    s.link == Up && (e == Write(false) || e == Closed)
  }

  /** A caller takes its own entry out of the table, dropping the sender. */
  function Take(s: State, id: Id): (r: Stepped)
    ensures r.state == s.(pending := s.pending - {id})
    ensures r.out.Keys == s.pending * {id}
    ensures forall k :: k in r.out ==> r.out[k] == Dropped
  {
    if id in s.pending then Stepped(s.(pending := s.pending - {id}), map[id := Dropped])
    else Stepped(s, map[])
  }

  /** The end of an epoch: back to `Down`, every pending caller abandoned
      by a draining loop, and nobody resolved by a lingering one. */
  function EndEpoch(loop: Loop, s: State): (r: Stepped)
    ensures loop == Draining ==> r.state == s.(pending := {}, link := Down)
    ensures loop == Lingering ==> r.state == s.(link := Down)
    ensures r.out.Keys == s.pending - r.state.pending
    ensures forall k :: k in r.out ==> r.out[k] == Abandoned
  {
    match loop
    case Draining => Stepped(s.(pending := {}, link := Down), Drained(s.pending))
    case Lingering => Stepped(s.(link := Down), map[])
  }

  /** A frame handed to the demultiplexer. */
  function Route(s: State, f: Frame): (r: Stepped)
    ensures r.state == s.(pending := r.state.pending)
    ensures r.out.Keys == s.pending - r.state.pending
    ensures r.state.pending <= s.pending
    ensures forall k :: k in s.pending - r.state.pending ==> Addressee(f) == Some(k)
    ensures forall k :: k in r.out && r.out[k].Payload? ==> Echoes(r.out[k].text, k)
  {
    var routed := OnFrame(s.pending, f);
    Stepped(s.(pending := routed.pending), routed.out)
  }

  /** One atomic event. Events that cannot occur in the current phase (a
      frame while `Down`, a second registration of a generated id) change
      nothing. */
  function Step(loop: Loop, s: State, e: Event): (r: Stepped)
    // an entry leaves the table exactly when its caller is resolved
    ensures r.out.Keys == s.pending - r.state.pending
    // only a registration adds an entry, and only a fresh one
    ensures r.state.pending - s.pending <= (if e.Register? && e.id !in s.issued then {e.id} else {})
    ensures r.state.issued == s.issued + (if e.Register? then {e.id} else {})
    ensures Valid(s) ==> Valid(r.state)
    // every payload is a response that echoes the id it is sent to, or the
    // sentinel of a draining loop
    ensures forall k :: k in r.out && r.out[k].Payload? ==>
      (loop == Draining && r.out[k].text == Empty) || Echoes(r.out[k].text, k)
    // an epoch ends with every pending caller abandoned and the table empty ...
    ensures EndsEpoch(s, e) && loop == Draining ==>
      r.state.pending == {} && r.state.link == Down && r.out.Keys == s.pending
      && forall k :: k in r.out ==> r.out[k] == Abandoned
    // ... or, in the older loop, with the table and every caller left as they are
    ensures EndsEpoch(s, e) && loop == Lingering ==> r == Stepped(s.(link := Down), map[])
    // a frame touches no entry but its own; a caller withdraws only its own
    ensures e.Receive? ==> forall k :: k in s.pending - r.state.pending ==> Addressee(e.frame) == Some(k)
    ensures e.Withdraw? ==> s.pending - r.state.pending <= {e.id}
    // a fresh registration inserts its id; a withdrawal removes it
    ensures e.Register? && e.id !in s.issued ==> e.id in r.state.pending
    ensures e.Withdraw? ==> e.id !in r.state.pending
    // a failed connection attempt leaves the table alone
    ensures e.ConnectFail? ==> r.state == s
  {
    match e
    case Register(id) =>
      if id in s.issued then Stepped(s, map[])
      else Stepped(State(s.pending + {id}, s.link, s.issued + {id}), map[])
    case Withdraw(id) => Take(s, id)
    case ConnectOk => Stepped(s.(link := Up), map[])
    case ConnectFail => Stepped(s, map[])
    case Write(ok) => if s.link == Up && !ok then EndEpoch(loop, s) else Stepped(s, map[])
    case Receive(f) => if s.link == Up then Route(s, f) else Stepped(s, map[])
    case InboundEnded => Stepped(s, map[])
    case Closed => if s.link == Up then EndEpoch(loop, s) else Stepped(s, map[])
  }

  /** Outside the end of an epoch the two loops take the same step. */
  lemma LoopsAgreeOutsideEpochEnd(s: State, e: Event)
    requires !EndsEpoch(s, e)
    ensures Step(Draining, s, e) == Step(Lingering, s, e)
  {
  }

  /** The state after a sequence of events. */
  function Final(loop: Loop, s: State, es: seq<Event>): State
    decreases |es|
  {
    if |es| == 0 then s else Final(loop, Step(loop, s, es[0]).state, es[1..])
  }

  /** What each event of a sequence resolved. */
  function Log(loop: Loop, s: State, es: seq<Event>): (log: seq<map<Id, Delivery>>)
    ensures |log| == |es|
    decreases |es|
  {
    if |es| == 0 then [] else [Step(loop, s, es[0]).out] + Log(loop, Step(loop, s, es[0]).state, es[1..])
  }

  /** The ids registered by a sequence of events. */
  function Registered(es: seq<Event>): set<Id>
  {
    set i | 0 <= i < |es| && es[i].Register? :: es[i].id
  }

  // ---------------------------------------------------------------- traces

  /** Everything resolved by a sequence was pending at its start or was
      registered during it. */
  lemma {:induction false} ResolvedWerePending(loop: Loop, s: State, es: seq<Event>)
    ensures forall i, k :: 0 <= i < |es| && k in Log(loop, s, es)[i] ==>
      k in s.pending || k in Final(loop, s, es).issued - s.issued
    ensures s.issued <= Final(loop, s, es).issued
    decreases |es|
  {
    if |es| > 0 {
      var st := Step(loop, s, es[0]);
      ResolvedWerePending(loop, st.state, es[1..]);
      forall i, k | 0 <= i < |es| && k in Log(loop, s, es)[i]
        ensures k in s.pending || k in Final(loop, s, es).issued - s.issued
      {
        if i > 0 {
          assert Log(loop, s, es)[i] == Log(loop, st.state, es[1..])[i - 1];
          assert k in st.state.pending || k in Final(loop, s, es).issued - st.state.issued;
        }
      }
    }
  }

  /** At most one resolution per id: no two events of any run resolve the
      same id, because each resolution takes the entry out of the table and a
      generated id is never registered again. */
  lemma {:induction false} AtMostOnce(loop: Loop, s: State, es: seq<Event>)
    requires Valid(s)
    ensures forall i, j :: 0 <= i < j < |es| ==> Log(loop, s, es)[i].Keys !! Log(loop, s, es)[j].Keys
    decreases |es|
  {
    if |es| > 0 {
      var st := Step(loop, s, es[0]);
      var log := Log(loop, s, es);
      var rest := Log(loop, st.state, es[1..]);
      AtMostOnce(loop, st.state, es[1..]);
      ResolvedWerePending(loop, st.state, es[1..]);
      forall i, j | 0 <= i < j < |es|
        ensures log[i].Keys !! log[j].Keys
      {
        assert log[j] == rest[j - 1];
        if i == 0 {
          forall k | k in log[0]
            ensures k !in log[j]
          {
            assert k in s.pending && k !in st.state.pending;
            assert k in st.state.issued;
          }
        } else {
          assert log[i] == rest[i - 1];
        }
      }
    }
  }

  /** Every payload any run delivers is either the abandonment sentinel of a
      draining loop or a response echoing the id of the caller that receives
      it: replies reach their own callers, whatever the order in which they
      arrive. */
  lemma {:induction false} RepliesReachTheirCallers(loop: Loop, s: State, es: seq<Event>)
    ensures forall i, k :: 0 <= i < |es| && k in Log(loop, s, es)[i] && Log(loop, s, es)[i][k].Payload? ==>
      (loop == Draining && Log(loop, s, es)[i][k].text == Empty) || Echoes(Log(loop, s, es)[i][k].text, k)
    decreases |es|
  {
    if |es| > 0 {
      var st := Step(loop, s, es[0]);
      RepliesReachTheirCallers(loop, st.state, es[1..]);
      forall i, k | 0 <= i < |es| && k in Log(loop, s, es)[i] && Log(loop, s, es)[i][k].Payload?
        ensures (loop == Draining && Log(loop, s, es)[i][k].text == Empty) || Echoes(Log(loop, s, es)[i][k].text, k)
      {
        if i > 0 {
          assert Log(loop, s, es)[i] == Log(loop, st.state, es[1..])[i - 1];
        }
      }
    }
  }

  /** An id absent from the table stays absent while nothing registers it. */
  lemma {:induction false} StaysAbsent(loop: Loop, s: State, es: seq<Event>, k: Id)
    requires k !in s.pending
    requires forall i :: 0 <= i < |es| ==> es[i] != Register(k)
    ensures k !in Final(loop, s, es).pending
    decreases |es|
  {
    if |es| > 0 {
      StaysAbsent(loop, Step(loop, s, es[0]).state, es[1..], k);
    }
  }

  lemma {:induction false} FinalSplit(loop: Loop, s: State, es: seq<Event>, n: nat)
    requires n <= |es|
    ensures Final(loop, s, es) == Final(loop, Final(loop, s, es[..n]), es[n..])
    decreases n
  {
    if n > 0 {
      assert es[1..][..n - 1] == es[..n][1..];
      assert es[1..][n - 1..] == es[n..];
      FinalSplit(loop, Step(loop, s, es[0]).state, es[1..], n - 1);
    }
  }

  /** Every id pending after a run was pending before it or registered in it. */
  lemma {:induction false} PendingWereRegistered(loop: Loop, s: State, es: seq<Event>)
    ensures Final(loop, s, es).pending <= s.pending + Registered(es)
    decreases |es|
  {
    if |es| > 0 {
      var st := Step(loop, s, es[0]);
      PendingWereRegistered(loop, st.state, es[1..]);
      forall k | k in Registered(es[1..]) ensures k in Registered(es) {
        var i :| 0 <= i < |es[1..]| && es[1..][i].Register? && es[1..][i].id == k;
        assert es[i + 1] == es[1..][i];
      }
      if es[0].Register? {
        assert es[0].id in Registered(es);
      }
    }
  }

  /** No leaked entries: when every registration is followed, later in the
      run, by the withdrawal its caller makes on timeout, nothing registered
      during the run is left in the table. */
  lemma NoLeak(loop: Loop, s: State, es: seq<Event>)
    requires forall i :: 0 <= i < |es| && es[i].Register? ==>
      exists j :: i < j < |es| && es[j] == Withdraw(es[i].id)
    ensures Final(loop, s, es).pending <= s.pending
  {
    PendingWereRegistered(loop, s, es);
    forall k | k in Final(loop, s, es).pending && k !in s.pending
      ensures false
    {
      var last := LastRegistration(es, k);
      var j :| last < j < |es| && es[j] == Withdraw(k);
      WithdrawnStaysAbsent(loop, s, es, j, k);
    }
  }

  /** A withdrawal that no later registration undoes keeps its id out of
      the table to the end of the run. */
  lemma WithdrawnStaysAbsent(loop: Loop, s: State, es: seq<Event>, j: nat, k: Id)
    requires j < |es| && es[j] == Withdraw(k)
    requires forall m :: j < m < |es| ==> es[m] != Register(k)
    ensures k !in Final(loop, s, es).pending
  {
    FinalSplit(loop, s, es, j + 1);
    var mid := Final(loop, s, es[..j + 1]);
    assert k !in mid.pending by {
      FinalSplit(loop, s, es[..j + 1], j);
      assert es[..j + 1][..j] == es[..j];
      assert es[..j + 1][j..] == [Withdraw(k)];
      var before := Final(loop, s, es[..j]);
      assert [Withdraw(k)][1..] == [];
      assert mid == Step(loop, before, Withdraw(k)).state;
    }
    var tail := es[j + 1..];
    assert forall m :: 0 <= m < |tail| ==> tail[m] == es[j + 1 + m];
    StaysAbsent(loop, mid, tail, k);
  }

  /** The position of the last registration of `k`. */
  lemma LastRegistration(es: seq<Event>, k: Id) returns (last: nat)
    requires k in Registered(es)
    ensures last < |es| && es[last] == Register(k)
    ensures forall m :: last < m < |es| ==> es[m] != Register(k)
  {
    var i :| 0 <= i < |es| && es[i].Register? && es[i].id == k;
    last := i;
    var m := i + 1;
    while m < |es|
      invariant last < m <= |es|
      invariant es[last] == Register(k)
      invariant forall n :: last < n < m ==> es[n] != Register(k)
    {
      if es[m] == Register(k) {
        last := m;
      }
      m := m + 1;
    }
  }

  /** The reconnect loop never gives up: from any state, a failed attempt
      returns to `Down` with the table untouched, and a successful one opens
      an epoch without touching the table either. */
  lemma ReconnectLoop(loop: Loop, s: State)
    requires s.link == Down
    ensures Step(loop, s, ConnectFail).state == s
    ensures Step(loop, s, ConnectOk).state == s.(link := Up)
    ensures Step(loop, s, ConnectFail).out == map[] && Step(loop, s, ConnectOk).out == map[]
  {
  }

  /** A stream that ends while the outbound channel is open does not end the
      epoch: pending callers stay pending until a write fails or both
      branches are disabled. */
  lemma InboundEndKeepsEpoch(loop: Loop, s: State)
    requires s.link == Up
    ensures Step(loop, s, InboundEnded) == Stepped(s, map[])
  {
  }

  // ---------------------------------------------------------------- one caller's wait

  /** What a caller's receiver observes: a payload, a dropped sender, or
      nothing while `world` lasts (for a caller with a timer, the end of
      `world` is the moment the timer fires). */
  datatype Wake = Woken(text: Text) | SenderDropped | Unresolved

  /** The world runs `world` until the entry `id` is resolved; the result is
      the state at that moment and what the caller observed. */
  function Await(loop: Loop, s: State, id: Id, world: seq<Event>): (r: (State, Wake))
    requires id in s.issued
    ensures id in r.0.issued && s.issued <= r.0.issued
    ensures !r.1.Unresolved? ==> id !in r.0.pending && id in s.pending
    ensures r.1.Unresolved? ==> (id in r.0.pending <==> id in s.pending)
    ensures r.1.Woken? ==> (loop == Draining && r.1.text == Empty) || Echoes(r.1.text, id)
    ensures Valid(s) ==> Valid(r.0)
    decreases |world|
  {
    if |world| == 0 then (s, Unresolved)
    else
      var st := Step(loop, s, world[0]);
      if id in st.out then
        (st.state, match st.out[id] case Payload(t) => Woken(t) case Dropped => SenderDropped)
      else Await(loop, st.state, id, world[1..])
  }

  /** What the receiver observes for a delivery. */
  function WakeOf(d: Delivery): (w: Wake)
    ensures !w.Unresolved?
  {
    match d
    case Payload(t) => Woken(t)
    case Dropped => SenderDropped
  }

  /** No event of the run resolves `id`. */
  predicate Untouched(loop: Loop, s: State, es: seq<Event>, id: Id)
  {
    forall i :: 0 <= i < |es| ==> id !in Log(loop, s, es)[i]
  }

  /** Event `i` of the run is the first one that resolves `id`. */
  predicate FirstResolves(loop: Loop, s: State, es: seq<Event>, id: Id, i: int)
  {
    0 <= i < |es| && id in Log(loop, s, es)[i] && forall j :: 0 <= j < i ==> id !in Log(loop, s, es)[j]
  }

  /** A run leaves `id` untouched exactly when its first event does and the
      rest of the run does too. */
  lemma {:induction false} UntouchedUnfolds(loop: Loop, s: State, es: seq<Event>, id: Id)
    requires |es| > 0
    ensures Untouched(loop, s, es, id) <==>
      id !in Step(loop, s, es[0]).out && Untouched(loop, Step(loop, s, es[0]).state, es[1..], id)
  {
    var st := Step(loop, s, es[0]);
    var log := Log(loop, s, es);
    var rest := Log(loop, st.state, es[1..]);
    assert log == [st.out] + rest;
    if Untouched(loop, s, es, id) {
      assert id !in log[0];
      forall i | 0 <= i < |rest| ensures id !in rest[i] {
        assert rest[i] == log[i + 1];
      }
    }
    if id !in st.out && Untouched(loop, st.state, es[1..], id) {
      forall i | 0 <= i < |log| ensures id !in log[i] {
        if i > 0 {
          assert log[i] == rest[i - 1];
        }
      }
    }
  }

  /** The first resolution of `id` in a run whose first event leaves `id`
      alone is the first resolution in the rest of the run, one place on. */
  lemma {:induction false} FirstResolvesUnfolds(loop: Loop, s: State, es: seq<Event>, id: Id, i: int)
    requires FirstResolves(loop, s, es, id, i)
    ensures id in Step(loop, s, es[0]).out <==> i == 0
    ensures i > 0 ==> FirstResolves(loop, Step(loop, s, es[0]).state, es[1..], id, i - 1)
    ensures i > 0 ==> Log(loop, s, es)[i] == Log(loop, Step(loop, s, es[0]).state, es[1..])[i - 1]
  {
    var st := Step(loop, s, es[0]);
    var log := Log(loop, s, es);
    var rest := Log(loop, st.state, es[1..]);
    assert log == [st.out] + rest;
    if i > 0 {
      assert id !in log[0];
      assert log[i] == rest[i - 1];
      forall j | 0 <= j < i - 1 ensures id !in rest[j] {
        assert rest[j] == log[j + 1];
      }
    }
  }

  /** A caller stays unresolved exactly when no event of its world resolves
      its id, and then the world has run to its end; otherwise it observes
      what the first event resolving its id delivered. */
  lemma {:induction false} AwaitIsFirstResolution(loop: Loop, s: State, id: Id, world: seq<Event>)
    requires id in s.issued
    ensures Await(loop, s, id, world).1.Unresolved? <==> Untouched(loop, s, world, id)
    ensures Await(loop, s, id, world).1.Unresolved? ==> Await(loop, s, id, world).0 == Final(loop, s, world)
    ensures forall i :: FirstResolves(loop, s, world, id, i) ==>
      Await(loop, s, id, world).1 == WakeOf(Log(loop, s, world)[i][id])
    decreases |world|
  {
    if |world| > 0 {
      var st := Step(loop, s, world[0]);
      UntouchedUnfolds(loop, s, world, id);
      if id !in st.out {
        AwaitIsFirstResolution(loop, st.state, id, world[1..]);
        forall i | FirstResolves(loop, s, world, id, i)
          ensures Await(loop, s, id, world).1 == WakeOf(Log(loop, s, world)[i][id])
        {
          FirstResolvesUnfolds(loop, s, world, id, i);
        }
      } else {
        forall i | FirstResolves(loop, s, world, id, i)
          ensures Await(loop, s, id, world).1 == WakeOf(Log(loop, s, world)[i][id])
        {
          FirstResolvesUnfolds(loop, s, world, id, i);
        }
      }
    }
  }

  /** An event that cannot resolve `id`, whatever the state: no frame that
      concerns it, no withdrawal of it, and no event that can end an epoch. */
  predicate Spares(e: Event, id: Id)
  {
    match e
    case Register(_) => true
    case Withdraw(k) => k != id
    case ConnectOk => true
    case ConnectFail => true
    case Write(ok) => ok
    case Receive(f) => Addressee(f) != Some(id)
    case InboundEnded => true
    case Closed => false
  }

  /** Event `i` of a run is the step taken from the state its first `i`
      events reach; before it, a pending id that only sparing events met is
      still pending, and nothing resolved it. */
  lemma {:induction false} ReachedBy(loop: Loop, s: State, es: seq<Event>, id: Id, i: nat)
    requires i < |es| && id in s.pending
    requires forall j :: 0 <= j < i ==> Spares(es[j], id)
    ensures Log(loop, s, es)[i] == Step(loop, Final(loop, s, es[..i]), es[i]).out
    ensures id in Final(loop, s, es[..i]).pending
    ensures forall j :: 0 <= j < i ==> id !in Log(loop, s, es)[j]
    decreases i
  {
    var st := Step(loop, s, es[0]);
    if i > 0 {
      assert id !in st.out && id in st.state.pending;
      assert es[..i][1..] == es[1..][..i - 1];
      ReachedBy(loop, st.state, es[1..], id, i - 1);
      LogTail(loop, s, es);
    }
  }

  /** Past its first event, the log of a run is the log of the rest of it. */
  lemma LogTail(loop: Loop, s: State, es: seq<Event>)
    requires |es| > 0
    ensures forall j :: 0 < j < |es| ==>
      Log(loop, s, es)[j] == Log(loop, Step(loop, s, es[0]).state, es[1..])[j - 1]
  {
  }

  /** No event of a world made only of sparing events resolves `id`. */
  lemma {:induction false} SparedThroughout(loop: Loop, s: State, es: seq<Event>, id: Id)
    requires forall j :: 0 <= j < |es| ==> Spares(es[j], id)
    ensures forall j :: 0 <= j < |es| ==> id !in Log(loop, s, es)[j]
    decreases |es|
  {
    if |es| > 0 {
      var st := Step(loop, s, es[0]);
      SparedThroughout(loop, st.state, es[1..], id);
      assert id !in st.out;
      LogTail(loop, s, es);
    }
  }
}
